=== FILE: README.md ===
# Choose/Choice state engine, reset control, progress bar and Box proxy — a Dafny model

The Box developer documentation site lets a reader pick options, such as a
plan or a region, on cards (`Choose`). Blocks of content (`Choice`,
`Observe`) then show or hide according to those picks. The picks live in a
small engine, `ChoiceStateManager`. It keeps a snapshot of the value chosen
for each option key and persists it under `com.box.developer.choice_events`
in `localStorage`. It also keeps an ordered list of listeners per key, and
`trigger` notifies them. The engine exists twice:

- as a class in `snippets/choose-choice-components.jsx`, used by the React
  components;
- as a prototype in `public/choose-choice-simple.js`, used by the plain
  script creators `createChoose` and `createChoice`.

Both copies sit behind the same page-level wrappers (`triggerChoice`,
`getChoiceValue`, ...).

This project models, in Dafny:

- **the engine** (`ChoiceState`): load/save with their fallbacks,
  `trigger`, `listen` and its unsubscribe, `getValue`, `hasValue`,
  `matchesValues` and `getState`. The manager is an immutable value, and
  every operation returns the next one. Notification is a returned sequence
  of deliveries. A listener that throws is named in a `faulty` set.
  `ChoiceStateProperties` relates the operations: persistence round trip,
  last write wins, fault isolation, the unsubscribe contract, and what
  `matchesValues` means.
- **the page wrappers** (`ChoiceGlobals`) and their fallbacks when the page
  has no manager.
- **the bindings** (`ChoiceBindings`):
  - the visibility rule of `Choice` / `createChoice`;
  - the lazy "shown once, stays mounted" gate;
  - the selection flags of `Choose` / `createChoose`;
  - `Observe`.

  `ChoiceScenarios` plays one page session through them.
- **the reset control** (`ResetControl`): which `localStorage` keys
  `clearLocalStorageData` removes, and which cookies `clearCookiesData`
  expires.
- **the progress bar** (`ProgressBar`): step detection from the URL path,
  and the numbered step links.
- **the Box proxy endpoint** (`BoxProxy`): `filterHeaders`, the shaping of
  the upstream request, and the error answer.

The shared vocabulary has three modules:

- `JsValues`: JavaScript primitives and their truthiness.
- `Text`: `trim` with the JavaScript whitespace set, `split` on one
  character with its inverse `Join`, `startsWith`, `endsWith`, `includes`,
  and ASCII `toLowerCase`.
- `Wrappers`: `Option`.

Where the two binding layers differ, the model records the difference:

- `Choose` sets its flags from the listener's arguments, while
  `createChoose` re-reads the page. `ChooseImplementationsAgree` says when
  the two agree.
- The React `Choice` unmounts a lazy block that has not shown yet. The
  script hides it, and that is indistinguishable from its ordinary hiding
  (`ScriptLazyGateInvisible`).

**Unsubscribe and duplicate registrations.** Unsubscribe is not idempotent
when one callback is registered twice under a key. Each call of the
function that `listen` returns removes the first remaining registration
(`indexOf` then `splice`). So a second call removes the second
registration.

- `UnsubscribeTwiceIsOnce` covers the single-registration case.
- `UnsubscribeTwiceRemovesDuplicate` shows the other case.

## Model

| member | source | states |
|---|---|---|
| ChoiceState.LoadState | snippets/choose-choice-components.jsx:13-21 | the stored document when the item parses as one; the empty snapshot when storage throws, holds nothing, or holds text that does not parse |
| ChoiceState.NewManager | snippets/choose-choice-components.jsx:7-11 | a new manager starts with no listeners; its state is exactly the document loaded from storage, and the empty snapshot on any load failure |
| ChoiceState.Stringify | snippets/choose-choice-components.jsx:25 | the saved document keeps every entry except those whose value is `undefined`, with the same values |
| ChoiceState.SaveState | snippets/choose-choice-components.jsx:23-29 | a successful save stores the serialised state; a failed save leaves the stored item as it was; memory and listeners never change |
| ChoiceState.HasValue | snippets/choose-choice-components.jsx:73-75 | a key has a value iff `getValue` of it is neither `undefined` nor `null` |
| ChoiceState.GetValue | snippets/choose-choice-components.jsx:69-71 | the value stored under the key, and `undefined` for a key never set |
| ChoiceState.MatchesValues | snippets/choose-choice-components.jsx:77-84 | a match needs a truthy current value and a truthy string list, and the value must be one of the trimmed entries; a non-empty string value listed there always matches |
| ChoiceState.AllowedValues | snippets/choose-choice-components.jsx:82 | the allowed entries are the comma-separated pieces of the list, each trimmed, one per piece and in order |
| ChoiceState.GetState | snippets/choose-choice-components.jsx:86-88 | the copy has exactly the manager's keys, each with the value `getValue` gives; being a value, later changes to either side cannot reach the other |
| ChoiceState.Notify | snippets/choose-choice-components.jsx:36-43 | every listener is called once, in order, with `(value, oldValue)`; exactly the faulty ones throw, and later listeners run regardless |
| ChoiceState.ListenersOf | snippets/choose-choice-components.jsx:36 | the key's registered listeners in order, and the empty list for a key never listened to |
| ChoiceState.Trigger | snippets/choose-choice-components.jsx:31-44 | afterwards the key holds the value; every other key, and the listeners, are unchanged; a successful save stores the new state and a failed one keeps the old item; the key's listeners are notified in registration order with the new and the previous value |
| ChoiceState.Listen | snippets/choose-choice-components.jsx:54-58 | the callback is appended to the key's list, creating it on first use; other keys, the state and storage are unchanged |
| ChoiceState.IndexOf | snippets/choose-choice-components.jsx:62 | -1 iff the callback is absent; otherwise a position holding it with no earlier occurrence |
| ChoiceState.RemoveFirst | snippets/choose-choice-components.jsx:63-65 | without the callback nothing changes; with it, exactly one registration (the first) is removed and the others keep their order |
| ChoiceState.Unsubscribe | snippets/choose-choice-components.jsx:60-66 | the key's list loses its first registration of the callback; other keys, state and storage are unchanged; a key never listened to is left alone |
| ChoiceStateProperties.SaveThenLoadRoundTrip | snippets/choose-choice-components.jsx:13-29 | reloading what was saved gives back the same `getValue`, `hasValue` and `matchesValues` for every key, even though `undefined` entries are not serialised |
| ChoiceStateProperties.FailedSaveKeepsMemory | snippets/choose-choice-components.jsx:23-34 | a trigger whose save fails has the same state, listeners and notifications as one whose save succeeds, and storage keeps the old document |
| ChoiceStateProperties.TriggerIsolatesFaults | snippets/choose-choice-components.jsx:37-43 | which listeners throw changes neither the resulting manager nor who is called with what |
| ChoiceStateProperties.LastWriteWins | snippets/choose-choice-components.jsx:31-43 | after two triggers of a key it holds the second value, and each listener's second call receives (second, first) |
| ChoiceStateProperties.RetriggerStillNotifies | snippets/choose-choice-components.jsx:31-43 | re-choosing the current value leaves the state as it was but notifies every listener again, with old and new value equal |
| ChoiceStateProperties.HasValueAfterTrigger | snippets/choose-choice-components.jsx:31-33 | after a trigger the key has a value iff the value written is neither `undefined` nor `null` |
| ChoiceStateProperties.MatchesValuesMeaning | snippets/choose-choice-components.jsx:77-84 | `matchesValues` is true iff the current value is truthy, the list is a non-empty string, and the current value is a string that some comma-separated piece of the list trims to; both directions are proved |
| ChoiceStateProperties.MatchImpliesHasValue | snippets/choose-choice-components.jsx:77-80 | a key that matches some list has a value |
| ChoiceStateProperties.FreshKeyMatchesNothing | snippets/choose-choice-components.jsx:69-84 | a key never triggered has no value and matches no list |
| ChoiceStateProperties.MatchesTrimmedCaseSensitive | snippets/choose-choice-components.jsx:82-83 | with `eu` chosen the list `us, eu` matches; with `EU` chosen it does not |
| ChoiceStateProperties.ListenThenUnsubscribeRestores | snippets/choose-choice-components.jsx:54-66 | listening and then calling the returned unsubscribe restores the key's list, when the callback was not registered there before |
| ChoiceStateProperties.UnsubscribeTwiceIsOnce | snippets/choose-choice-components.jsx:60-66 | a second call of an unsubscribe changes nothing when the callback was registered at most once |
| ChoiceStateProperties.UnsubscribeTwiceRemovesDuplicate | public/choose-choice-simple.js:58-64 | with one callback registered twice, the first call removes one registration and the second call removes the other |
| ChoiceStateProperties.UnsubscribedIsNotNotified | public/choose-choice-simple.js:37-64 | a callback registered once and unsubscribed is never called by a later trigger of its key |
| ChoiceStateProperties.ListenThenTriggerNotifiesLast | public/choose-choice-simple.js:32-55 | a new listener is called last by the next trigger, with the new and the previous value |
| ChoiceGlobals.InitPage | public/choose-choice-simple.js:89-90 | start-up keeps an existing manager; without one it installs a new manager loaded from the stored item, with no listeners |
| ChoiceGlobals.TriggerChoice | public/choose-choice-simple.js:93-97 | without a manager nothing happens and nobody is notified; with one, the key holds the value, every other key keeps its value, and the key's listeners get one delivery each, in registration order, carrying the new and the previous value |
| ChoiceGlobals.GetChoiceValue | public/choose-choice-simple.js:99-104 | `undefined` without a manager, else the manager's value for the key |
| ChoiceGlobals.ListenToChoice | public/choose-choice-simple.js:106-111 | without a manager a no-op unsubscribe and an unchanged page; with one, the callback is appended to the key's list, other keys untouched, and a real unsubscribe is handed back |
| ChoiceGlobals.RunUnsubscriber | public/choose-choice-simple.js:58-64 | the no-op unsubscribe leaves the page as it is; a real one removes the first registration of its callback from its key, and changes neither the state, nor storage, nor any other key's listeners |
| ChoiceGlobals.HasChoiceValue | public/choose-choice-simple.js:113-118 | true iff the page's value for the key is neither `undefined` nor `null` |
| ChoiceGlobals.MatchesChoiceValues | public/choose-choice-simple.js:120-125 | false without a manager; with one, exactly the manager's `matchesValues`; a match implies the key has a value |
| ChoiceGlobals.NoManagerDefaults | public/choose-choice-simple.js:93-125 | without a manager: trigger does nothing; the value is `undefined`; has/matches give false; listening hands back a no-op unsubscribe; no wrapper creates a manager |
| ChoiceGlobals.WrappersDelegate | public/choose-choice-simple.js:93-125 | with a manager each wrapper is exactly the manager's own operation |
| ChoiceGlobals.ListenToChoiceThenUnsubscribe | snippets/choose-choice-components.jsx:103-105 | the unsubscribe the wrapper hands out undoes the registration it made, with or without a manager |
| ChoiceBindings.UpdateVisibility | snippets/choose-choice-components.jsx:297-313 | in unset mode the block shows iff the key has no value, otherwise iff the key matches its values; `hasEverShown` becomes true iff it was or the block now shows |
| ChoiceBindings.ShowFor | snippets/choose-choice-components.jsx:299-307 | an unset-mode block shows iff its key has no value; any other block shows iff its key matches its values |
| ChoiceBindings.RenderChoice | snippets/choose-choice-components.jsx:399-408 | the block renders nothing iff lazy, never shown and not showing; when rendered, it is displayed iff it should show |
| ChoiceBindings.ScriptChoiceDisplayed | public/choose-choice-simple.js:261-290 | the script's container is displayed iff the block should show |
| ChoiceBindings.ScriptLazyGateInvisible | public/choose-choice-simple.js:261-265 | in the script version what is displayed is exactly `shouldShow`, whether or not the block is lazy |
| ChoiceBindings.RunUpdates | public/choose-choice-simple.js:241-259 | a run of updates keeps the block's declaration and preserves the consistency of its flags (a block showing has shown); any non-empty run leaves the flags consistent, whatever they were before |
| ChoiceBindings.RunUpdatesAppend | public/choose-choice-simple.js:241-259 | running two stretches of updates one after the other is running their concatenation |
| ChoiceBindings.EverShownIffShownOnce | snippets/choose-choice-components.jsx:309-312 | after a run of updates, `hasEverShown` holds iff it held before or some update in the run decided to show |
| ChoiceBindings.EverShownMonotone | public/choose-choice-simple.js:253-256 | `hasEverShown` never turns off |
| ChoiceBindings.MountedIffNotLazyOrShown | snippets/choose-choice-components.jsx:399-401 | after an update, the block is mounted iff it is not lazy or has shown at least once |
| ChoiceBindings.StaysMounted | snippets/choose-choice-components.jsx:399-408 | once mounted, a block stays mounted through any later updates; only its display toggles |
| ChoiceBindings.LazyUnmountedUntilShown | snippets/choose-choice-components.jsx:399-401 | a lazy block stays unmounted through a run of updates iff no update in it decided to show |
| ChoiceBindings.UnsetAndValuesExclusive | snippets/choose-choice-components.jsx:303-307 | an unset-mode block and a values block on the same key are never both showing |
| ChoiceBindings.MountChoose | snippets/choose-choice-components.jsx:124-128 | on mount a card is selected iff the current value is its value (strict equality), and triggered iff the key has a value |
| ChoiceBindings.ChooseNotified | snippets/choose-choice-components.jsx:132-135 | on notification the card is selected iff the new value is its value (strict equality), and its key counts as triggered |
| ChoiceBindings.ChooseRefreshed | public/choose-choice-simple.js:138-145 | on refresh the card is selected iff the page's current value is its value, and triggered iff the key has a value |
| ChoiceBindings.ClickChoose | snippets/choose-choice-components.jsx:184-186 | with a manager, after a click the card's key holds the card's value, every other key keeps its value, and the key's listeners get one delivery each, in order, with the card's value and the previous one; without a manager nothing changes and nobody is notified |
| ChoiceBindings.CardAppearance | snippets/choose-choice-components.jsx:227-251 | a card is highlighted iff selected, and dimmed iff not selected while its key has been chosen |
| ChoiceBindings.ChooseImplementationsAgree | public/choose-choice-simple.js:138-145 | after a click, the React listener and the script's `updateState` agree on selection; they agree on `hasOptionTriggered` iff the clicked value is neither `undefined` nor `null` |
| ChoiceBindings.ClickSelectsOnlyClicked | public/choose-choice-simple.js:197-199 | after a click the clicked card is selected, the key's other cards are not, and they are dimmed when the value is a real choice |
| ChoiceBindings.ObserveRendered | snippets/choose-choice-components.jsx:450-465 | an observer renders iff `matchesChoiceValues` holds for its key and values, and so only while the key has a value |
| ChoiceBindings.ObserveAgreesWithChoice | snippets/choose-choice-components.jsx:447-465 | an `Observe` renders exactly when a non-lazy values-mode `Choice` on the same key and values shows after an update, and never together with an unset-mode block on that key |
| ChoiceScenarios.LazyBlockSession | snippets/choose-choice-components.jsx:296-320 | a lazy block for `enterprise` renders nothing on a fresh page and after `free`; it mounts and displays after `enterprise`; after `free` again it stays mounted and is hidden |
| Text.Trim | snippets/choose-choice-components.jsx:82 | the result has no whitespace at either end, and it is a slice of the input with only whitespace cut off on both sides |
| Text.TrimIdempotent | snippets/reset-button.jsx:11 | trimming twice is trimming once |
| Text.Split | snippets/choose-choice-components.jsx:82 | at least one piece; no piece contains the separator; joining the pieces with the separator gives back the input |
| Text.SplitJoin | snippets/choose-choice-components.jsx:82 | splitting the join of separator-free pieces gives back those pieces |
| Text.SplitUnique | snippets/reset-button.jsx:11 | the split is the only way to write a string as separator-free pieces joined by the separator |
| Text.Includes | snippets/progress-bar.jsx:52 | `includes` holds iff the needle occurs at some position of the string |
| Text.EndsWithImpliesIncludes | snippets/progress-bar.jsx:52 | a string that ends with a needle includes it |
| Text.ToLowerAscii | snippets/box-proxy-backend.js:45 | same length; upper-case ASCII letters become their lower-case letter; every other character is kept |
| ResetControl.SelectPrefixes | snippets/reset-button.jsx:9-30 | without an id, the namespace `com.box.developer.`; with a string id, the namespace followed by each trimmed comma-separated entry; any other truthy id throws and selects nothing |
| ResetControl.RemoveItem | snippets/reset-button.jsx:33 | removing a key deletes that item and nothing else, keeps storage well-formed, and is a no-op for a missing key |
| ResetControl.RemoveItemIdempotent | snippets/reset-button.jsx:32-34 | removing a key twice is removing it once, so duplicates in the collected list are harmless |
| ResetControl.CollectForPrefix | snippets/reset-button.jsx:15-20 | one pass over storage collects exactly the non-empty keys that start with the prefix |
| ResetControl.CollectKeys | snippets/reset-button.jsx:13-21 | the collected keys are exactly the stored keys that start with one of the prefixes |
| ResetControl.RemoveKeys | snippets/reset-button.jsx:32-34 | afterwards an item survives iff it was not collected, with its value unchanged |
| ResetControl.ClearLocalStorageData | snippets/reset-button.jsx:5-38 | an item is removed iff storage is usable and the id selects it; survivors keep their values; when storage throws, or the id is truthy and not a string, nothing is removed |
| ResetControl.ResetWithoutIdClearsChoiceState | snippets/reset-button.jsx:23-29 | a reset without an id clears the engine's own stored document |
| ResetControl.ResetWithoutIdClearsNamespace | snippets/reset-button.jsx:23-29 | without an id, a key is cleared iff it starts with `com.box.developer.` |
| ResetControl.IdPrefixAlsoClearsLongerIds | snippets/reset-button.jsx:14-17 | the id `app` also clears the keys of an id `apps`, since matching is by prefix |
| ResetControl.TrailingCommaClearsWholeNamespace | snippets/reset-button.jsx:11-17 | a trailing comma in the id produces an empty entry, so every namespaced key is cleared |
| ResetControl.ClearCookiesData | snippets/reset-button.jsx:41-55 | no id: nothing is written; a string id: one expiry cookie per trimmed comma-separated entry, in order; any other truthy id throws |
| ResetControl.CookiesFollowClearedPrefixes | snippets/reset-button.jsx:9-55 | without an id no cookie is written while the whole namespace is cleared; a non-string truthy id makes both clears throw; a string id gives one cookie per storage prefix, cookie `i` expiring exactly the name prefix `i` adds to the namespace |
| ProgressBar.NormalizePagePath | snippets/progress-bar.jsx:51 | the result starts with `/`, ends with the page path, and is at most one character longer |
| ProgressBar.NormalizeIdempotent | snippets/progress-bar.jsx:176 | normalising twice is normalising once |
| ProgressBar.NormalizeAddsOnlyMissingSlash | snippets/progress-bar.jsx:176 | a path that starts with `/` is kept as it is; any other path gets exactly one `/` in front |
| ProgressBar.PageMatchesIffIncluded | snippets/progress-bar.jsx:49-53 | a page matches iff its normalised path occurs in the current path; the `endsWith` test adds nothing |
| ProgressBar.FirstTrue | snippets/progress-bar.jsx:49 | the first true position at or after the start, or -1 iff there is none |
| ProgressBar.FindStepIndex | snippets/progress-bar.jsx:49-53 | -1 iff no page matches; otherwise the index of a matching page with no matching page before it |
| ProgressBar.DetectStep | snippets/progress-bar.jsx:43-59 | with no pages, or no match, the step is left as it was; otherwise it is the 1-based number of the first matching page, in `1..pages.length` |
| ProgressBar.DetectStepStable | snippets/progress-bar.jsx:43-59 | detecting again on the same pages and path changes nothing |
| ProgressBar.RenderSteps | snippets/progress-bar.jsx:62-177 | nothing is rendered iff there are no pages; otherwise one link per page, numbered from 1, whose href is exactly the normalised page path, active iff its number is the step |
| ProgressBar.AtMostOneActive | snippets/progress-bar.jsx:172-177 | no two step links are active |
| ProgressBar.DetectedStepIsTheActiveLink | snippets/progress-bar.jsx:15-59 | from the initial step, a match makes the first matching page's link the only active one, and its href occurs in the current path; without a match no link is active |
| BoxProxy.FilterHeaders | snippets/box-proxy-backend.js:113-130 | a missing argument gives no headers; otherwise exactly the entries whose name is not blocked, with their values unchanged |
| BoxProxy.FilterHeadersIdempotent | snippets/box-proxy-backend.js:113-130 | filtering twice is filtering once |
| BoxProxy.BlockedNamesAreCaseSensitive | snippets/box-proxy-backend.js:119 | names are compared exactly: a client `Host` header is forwarded and `host` is not |
| BoxProxy.RequestHeaders | snippets/box-proxy-backend.js:47-52 | the upstream headers are `Authorization`, `Content-Type` and the filtered client headers, never a blocked one; client entries win; otherwise the bearer token is sent, and JSON is the content type |
| BoxProxy.ClientHeadersOverride | snippets/box-proxy-backend.js:47-52 | a client `Authorization` or `Content-Type` header replaces the proxy's own, even a falsy `Content-Type` |
| BoxProxy.ShapeRequest | snippets/box-proxy-backend.js:44-63 | a non-string method throws before any request is made; otherwise the method is lower-cased, the URL kept, the body attached iff the data is truthy and the method is post, put or patch, and the params attached iff truthy |
| BoxProxy.UpperCaseMethodKeepsBody | snippets/box-proxy-backend.js:45-58 | `POST` is sent as `post` with its body, while `GET` is sent as `get` without one |
| BoxProxy.ErrorResponse | snippets/box-proxy-backend.js:75-81 | the status is the upstream status when truthy, else 500; the body is the upstream data when truthy, else the default proxy error |
| BoxProxy.HandleProxy | snippets/box-proxy-backend.js:24-83 | an upstream answer is relayed with status 200; a request that cannot be shaped gets 500 and the default error; a failure takes the upstream status when there is one, else 500 |
| BoxProxy.ProxyAnswerMeaning | snippets/box-proxy-backend.js:24-83 | a 200 with data means the request was shaped and upstream answered, or failed with status 200 and truthy data; the default error body appears iff the method is not a string or the failure carried no truthy data; any data relayed is upstream's |

## Left out

- The `choiceStateUpdate` `CustomEvent` broadcast at the end of `trigger`. It is browser plumbing and carries what the deliveries already record.
- DOM and React wiring: effects, re-subscription when props change, `innerHTML`, keyboard handlers.
- Dark-mode detection, colour maps, styles, and the progress-bar fill width. The fill width is a floating-point percentage.
- `ChoiceState.LoadState`: text that parses to JSON but not to an object (a number, say) is not modelled. A `StoredItem` is either unreadable, absent, unparseable, or a snapshot.
- Own-property and prototype details of the state object: keys such as `toString` or `__proto__` are not modelled.
- `JsValues`: numbers are integers. NaN, fractions and objects are not modelled. For request payloads, where only truthiness matters, a truthy primitive stands in for an object.
- `Text.ToLowerAscii`: lower-cases ASCII letters only, while `toLowerCase` also folds non-ASCII letters. HTTP method names are ASCII.
- A listener that registers or unregisters listeners while `trigger` is notifying. The model notifies the list as it stood when `trigger` began.
- `ProgressBar.DetectStep`: a `pages` prop that is explicitly `null` is not modelled. The effect would throw on `pages.length`.
- `ResetControl.ClearLocalStorageData`: storage failing part-way through is not modelled. `available` covers storage that throws on first use, which removes nothing.
- `BoxProxy.FilterHeaders`: a client header argument that is truthy but not an object (a string, say, whose spread yields index keys) is not modelled. The argument is either missing or a map of headers.
- The axios call, the access-token retrieval, the Express set-up and the CORS middleware. The upstream outcome and the token are parameters of `HandleProxy` and `ShapeRequest`.
- `snippets/store.jsx` (polling and regular-expression validation), the Box UI element snippets, `api/box/demo-token.js`, `fix-ja-resources.js` and the purely presentational snippets. None of them is part of this model.

=== FILE: box_proxy.dfy ===
/** The Box API proxy endpoint: which client headers it forwards, how it
    shapes the upstream request, and what it answers when the upstream call
    fails. The upstream call itself is a parameter: the model is told whether
    it answered, failed with a response, or failed without one. */
module BoxProxy {
  import opened JsValues
  import opened Wrappers
  import opened Text

  /** Request headers by name. Names are compared exactly, case included. */
  type Headers = map<string, Value>

  /** The client headers that are never forwarded. */
  const BlockedHeaders: set<string> := {
    "host", "origin", "referer", "user-agent", "accept-encoding",
    "accept-language", "sec-fetch-mode", "sec-fetch-site", "sec-fetch-dest"
  }

  /** The methods whose requests carry a body. */
  const BodyMethods: set<string> := {"post", "put", "patch"}

  const DefaultContentType := "application/json"

  /** `filterHeaders`: the empty map for a missing (falsy) argument, otherwise
      a copy without the blocked names, every other entry unchanged. */
  function FilterHeaders(headers: Option<Headers>): (r: Headers)
    ensures headers.None? ==> r == map[]
    ensures headers.Some? ==> forall k :: k in r <==> k in headers.value && k !in BlockedHeaders
    ensures headers.Some? ==> forall k :: k in r ==> r[k] == headers.value[k]
  {
    match headers
    case None => map[]
    case Some(h) => map k | k in h && k !in BlockedHeaders :: h[k]
  }

  /** Filtering an already filtered map changes nothing. */
  lemma FilterHeadersIdempotent(headers: Option<Headers>)
    ensures FilterHeaders(Some(FilterHeaders(headers))) == FilterHeaders(headers)
  {
  }

  /** The blocked names are matched exactly: a client header `Host` is
      forwarded while `host` is not. */
  lemma BlockedNamesAreCaseSensitive(v: Value)
    ensures "Host" in FilterHeaders(Some(map["Host" := v, "host" := v]))
    ensures "host" !in FilterHeaders(Some(map["Host" := v, "host" := v]))
  {
    assert "Host" !in BlockedHeaders by {
      assert "Host"[0] != "host"[0];
    }
  }

  /** The request sent upstream: its lower-cased method (`verb`), URL and
      headers; `data` and `params` are absent unless attached. */
  datatype BoxRequest = BoxRequest(
    verb: string,
    url: Value,
    headers: Headers,
    data: Option<Value>,
    params: Option<Value>)

  /** `originalHeaders?.['Content-Type']`. */
  function ClientHeader(headers: Option<Headers>, name: string): Value {
    if headers.Some? && name in headers.value then headers.value[name] else Undefined
  }

  /** The proxy's own header names are not blocked ones. */
  lemma OwnNamesNotBlocked()
    ensures "Authorization" !in BlockedHeaders && "Content-Type" !in BlockedHeaders
  {
    assert forall b :: b in BlockedHeaders ==> |b| != 12 && |b| != 13;
  }

  /** The header object literal: the bearer token and a content type (the
      client's when truthy, else JSON), then the filtered client headers
      spread over them. */
  function RequestHeaders(accessToken: string, originalHeaders: Option<Headers>): (h: Headers)
    ensures forall k :: k in h <==>
              k == "Authorization" || k == "Content-Type" || k in FilterHeaders(originalHeaders)
    ensures forall k :: k in h && k in BlockedHeaders ==> false
    ensures forall k :: k in FilterHeaders(originalHeaders) ==> h[k] == FilterHeaders(originalHeaders)[k]
    ensures "Authorization" !in FilterHeaders(originalHeaders) ==>
              h["Authorization"] == Str("Bearer " + accessToken)
    ensures "Content-Type" !in FilterHeaders(originalHeaders) ==>
              h["Content-Type"] == Str(DefaultContentType)
  {
    OwnNamesNotBlocked();
    var contentType := ClientHeader(originalHeaders, "Content-Type");
    var base := map[
      "Authorization" := Str("Bearer " + accessToken),
      "Content-Type" := if Truthy(contentType) then contentType else Str(DefaultContentType)];
    base + FilterHeaders(originalHeaders)
  }

  /** Shaping the upstream request: `None` when `originalMethod` is not a
      string (`toLowerCase` throws). Otherwise the method is lower-cased, the
      body is attached only when the data is truthy and the method is post,
      put or patch, and the params only when truthy. */
  function ShapeRequest(originalUrl: Value, originalMethod: Value, originalData: Value,
                        originalParams: Value, originalHeaders: Option<Headers>,
                        accessToken: string): (r: Option<BoxRequest>)
    ensures r.Some? <==> originalMethod.Str?
    ensures r.Some? ==> r.value.verb == ToLowerAscii(originalMethod.s)
    ensures r.Some? ==> r.value.url == originalUrl
    ensures r.Some? ==> r.value.headers == RequestHeaders(accessToken, originalHeaders)
    ensures r.Some? ==>
              (r.value.data.Some? <==> Truthy(originalData) && r.value.verb in BodyMethods)
    ensures r.Some? && r.value.data.Some? ==> r.value.data.value == originalData
    ensures r.Some? ==> (r.value.params.Some? <==> Truthy(originalParams))
    ensures r.Some? && r.value.params.Some? ==> r.value.params.value == originalParams
  {
    if !originalMethod.Str? then None
    else
      var verb := ToLowerAscii(originalMethod.s);
      var data := if Truthy(originalData) && verb in BodyMethods then Some(originalData) else None;
      var params := if Truthy(originalParams) then Some(originalParams) else None;
      Some(BoxRequest(verb, originalUrl, RequestHeaders(accessToken, originalHeaders), data, params))
  }

  /** Headers the client sends under `Authorization` or `Content-Type` win
      over the proxy's own, even a falsy `Content-Type`. */
  lemma ClientHeadersOverride(accessToken: string, originalHeaders: Headers)
    requires "Authorization" in originalHeaders && "Content-Type" in originalHeaders
    ensures var h := RequestHeaders(accessToken, Some(originalHeaders));
            h["Authorization"] == originalHeaders["Authorization"]
            && h["Content-Type"] == originalHeaders["Content-Type"]
  {
  }

  /** A mixed-case `POST` is sent as `post` and keeps its body, while a GET
      never carries one. */
  lemma UpperCaseMethodKeepsBody(url: Value, data: Value, params: Value, headers: Option<Headers>, token: string)
    requires Truthy(data)
    ensures var r := ShapeRequest(url, Str("POST"), data, params, headers, token);
            r.Some? && r.value.verb == "post" && r.value.data == Some(data)
    ensures var r := ShapeRequest(url, Str("GET"), data, params, headers, token);
            r.Some? && r.value.verb == "get" && r.value.data.None?
  {
    var post := ToLowerAscii("POST");
    assert post[0] == 'p' && post[1] == 'o' && post[2] == 's' && post[3] == 't';
    assert post == "post";
    var get := ToLowerAscii("GET");
    assert get[0] == 'g' && get[1] == 'e' && get[2] == 't';
    assert get == "get";
  }

  /** What the upstream call did. */
  datatype Upstream =
    | Answered(data: Value)
    | FailedWithResponse(status: Value, data: Value)
    | FailedWithoutResponse

  /** The body of the proxy's answer: JSON data, or the default error object
      `{type: 'error', message: 'Proxy server error'}`. */
  datatype Body = Json(v: Value) | ProxyError

  datatype Response = Response(status: Value, body: Body)

  /** The status sent on success (Express's default for `res.json`). */
  const OkStatus := Num(200)

  /** The status used when the failure carries none. */
  const ServerErrorStatus := Num(500)

  /** The error answer: the upstream status when truthy, else 500; the
      upstream data when truthy, else the default error object. */
  function ErrorResponse(upstream: Upstream): (res: Response)
    requires !upstream.Answered?
    ensures upstream.FailedWithResponse? && Truthy(upstream.status) ==> res.status == upstream.status
    ensures !(upstream.FailedWithResponse? && Truthy(upstream.status)) ==> res.status == ServerErrorStatus
    ensures upstream.FailedWithResponse? && Truthy(upstream.data) ==> res.body == Json(upstream.data)
    ensures !(upstream.FailedWithResponse? && Truthy(upstream.data)) ==> res.body == ProxyError
  {
    match upstream
    case FailedWithResponse(status, data) =>
      Response(if Truthy(status) then status else ServerErrorStatus,
               if Truthy(data) then Json(data) else ProxyError)
    case FailedWithoutResponse => Response(ServerErrorStatus, ProxyError)
  }

  /** The handler: shape the request, call upstream, relay its data or the
      error answer. A request that cannot be shaped never reaches upstream
      and is answered with 500 and the default error. */
  function HandleProxy(originalUrl: Value, originalMethod: Value, originalData: Value,
                       originalParams: Value, originalHeaders: Option<Headers>,
                       accessToken: string, upstream: Upstream): (res: Response)
    ensures !originalMethod.Str? ==> res == Response(ServerErrorStatus, ProxyError)
    ensures originalMethod.Str? && upstream.Answered? ==> res == Response(OkStatus, Json(upstream.data))
    ensures originalMethod.Str? && upstream.FailedWithResponse? && Truthy(upstream.status) ==>
              res.status == upstream.status
    ensures originalMethod.Str? && !upstream.Answered? &&
            !(upstream.FailedWithResponse? && Truthy(upstream.status)) ==>
              res.status == ServerErrorStatus
  {
    match ShapeRequest(originalUrl, originalMethod, originalData, originalParams, originalHeaders, accessToken)
    case None => Response(ServerErrorStatus, ProxyError)
    case Some(_) =>
      match upstream
      case Answered(data) => Response(OkStatus, Json(data))
      case _ => ErrorResponse(upstream)
  }

  /** What a client can conclude from the answer, over all inputs. A 200
      carrying data means the request was shaped and upstream either answered
      or failed with status 200 and data of its own. The default error body
      appears exactly when the request could not be shaped, or upstream
      failed without truthy data. */
  lemma ProxyAnswerMeaning(originalUrl: Value, originalMethod: Value, originalData: Value,
                           originalParams: Value, originalHeaders: Option<Headers>,
                           accessToken: string, upstream: Upstream)
    ensures var res := HandleProxy(originalUrl, originalMethod, originalData, originalParams,
                                   originalHeaders, accessToken, upstream);
            res.status == OkStatus && res.body.Json? ==>
              && originalMethod.Str?
              && (upstream.Answered?
                  || (upstream.FailedWithResponse? && upstream.status == OkStatus && Truthy(upstream.data)))
    ensures var res := HandleProxy(originalUrl, originalMethod, originalData, originalParams,
                                   originalHeaders, accessToken, upstream);
            res.body == ProxyError <==>
              || !originalMethod.Str?
              || (!upstream.Answered? && !(upstream.FailedWithResponse? && Truthy(upstream.data)))
    ensures var res := HandleProxy(originalUrl, originalMethod, originalData, originalParams,
                                   originalHeaders, accessToken, upstream);
            res.body.Json? ==> originalMethod.Str? && res.body.v == upstream.data
  {
  }
}

=== FILE: choice_bindings.dfy ===
/** The state kept by the bindings that consume the engine:
    - a conditional block (`Choice` / `createChoice`): whether it should show
      now, and whether it has ever shown, which drives the lazy gate;
    - a selectable card (`Choose` / `createChoose`): whether it is the chosen
      value, and whether its key has been chosen at all;
    - an observer (`Observe`): shown exactly while the key matches.
    Styling, dark mode and DOM/React wiring are not part of the model. */
module ChoiceBindings {
  import opened JsValues
  import opened Wrappers
  import opened ChoiceState
  import opened ChoiceGlobals
  import ChoiceStateProperties

  // ---------------------------------------------------------------------------
  // Choice: visibility rule and lazy gate

  /** A conditional block: its declaration (`key`, the comma-separated
      `values`, `unset`, `lazy`) and its two flags. */
  datatype ChoiceBlock = ChoiceBlock(
    key: string, values: Value, unset: bool, lazy: bool,
    shouldShow: bool, hasEverShown: bool)

  /** A block as first mounted: not shown, never shown. */
  function MountChoice(key: string, values: Value, unset: bool, lazy: bool): ChoiceBlock {
    ChoiceBlock(key, values, unset, lazy, false, false)
  }

  /** Same declaration, whatever the flags. */
  predicate SameDeclaration(a: ChoiceBlock, b: ChoiceBlock) {
    a.key == b.key && a.values == b.values && a.unset == b.unset && a.lazy == b.lazy
  }

  /** The decision `updateVisibility` takes from the page: show when in unset
      mode and the key has no value, or when not in unset mode and the key
      matches the block's values. */
  function ShowFor(b: ChoiceBlock, page: Page): (show: bool)
    ensures b.unset ==> (show <==> !HasChoiceValue(page, b.key))
    ensures !b.unset ==> (show <==> MatchesChoiceValues(page, b.key, b.values))
  {
    var hasOptionValue := HasChoiceValue(page, b.key);
    var matchesValue := MatchesChoiceValues(page, b.key, b.values);
    if b.unset && !hasOptionValue then true
    else if !b.unset && matchesValue then true
    else false
  }

  /** `updateVisibility`, run on mount and on every notification for the key:
      `shouldShow` is re-evaluated from scratch, `hasEverShown` only ever
      turns on. */
  function UpdateVisibility(b: ChoiceBlock, page: Page): (b': ChoiceBlock)
    ensures SameDeclaration(b', b)
    ensures b'.unset ==> (b'.shouldShow <==> !HasChoiceValue(page, b.key))
    ensures !b'.unset ==> (b'.shouldShow <==> MatchesChoiceValues(page, b.key, b.values))
    ensures b'.hasEverShown <==> b.hasEverShown || b'.shouldShow
  {
    var show := ShowFor(b, page);
    b.(shouldShow := show, hasEverShown := b.hasEverShown || show)
  }

  /** What the React `Choice` renders: nothing, or a container whose
      `display` is block (`true`) or none (`false`). */
  datatype Rendered = Nothing | Container(displayed: bool)

  /** The render rule: nothing while the block is lazy, has never shown and
      should not show; otherwise a container displayed iff it should show. */
  function RenderChoice(b: ChoiceBlock): (r: Rendered)
    ensures r.Nothing? <==> b.lazy && !b.hasEverShown && !b.shouldShow
    ensures r.Container? ==> (r.displayed <==> b.shouldShow)
  {
    if b.lazy && !b.hasEverShown && !b.shouldShow then Nothing else Container(b.shouldShow)
  }

  /** `createChoice.updateVisuals`: while the lazy gate holds the container is
      set to `display: none` (and styles are not applied); otherwise display is
      block iff the block should show. The result is the container's display. */
  function ScriptChoiceDisplayed(b: ChoiceBlock): (displayed: bool)
    ensures displayed <==> b.shouldShow
  {
    if b.lazy && !b.hasEverShown && !b.shouldShow then false else b.shouldShow
  }

  /** In the script version the lazy gate hides only what would be hidden
      anyway: the container is displayed exactly when the block should show,
      lazy or not. (The content is written into the container at creation, so
      nothing is deferred either.) */
  lemma ScriptLazyGateInvisible(b: ChoiceBlock)
    ensures ScriptChoiceDisplayed(b) == b.shouldShow
    ensures ScriptChoiceDisplayed(b) == ScriptChoiceDisplayed(b.(lazy := !b.lazy))
  {
  }

  /** The invariant every update establishes: a block showing now has shown. */
  predicate Consistent(b: ChoiceBlock) {
    b.shouldShow ==> b.hasEverShown
  }

  /** The block after a run of updates, one per notification, each reading
      the page as it is then. */
  function RunUpdates(b: ChoiceBlock, pages: seq<Page>): (b': ChoiceBlock)
    ensures SameDeclaration(b', b)
    ensures Consistent(b) ==> Consistent(b')
    ensures |pages| > 0 ==> Consistent(b')
    decreases |pages|
  {
    if |pages| == 0 then b else RunUpdates(UpdateVisibility(b, pages[0]), pages[1..])
  }

  /** Running two stretches of updates is running their concatenation. */
  lemma {:induction false} RunUpdatesAppend(b: ChoiceBlock, ps: seq<Page>, qs: seq<Page>)
    ensures RunUpdates(b, ps + qs) == RunUpdates(RunUpdates(b, ps), qs)
    decreases |ps|
  {
    if |ps| == 0 {
      assert ps + qs == qs;
    } else {
      assert (ps + qs)[0] == ps[0];
      assert (ps + qs)[1..] == ps[1..] + qs;
      RunUpdatesAppend(UpdateVisibility(b, ps[0]), ps[1..], qs);
    }
  }

  /** `hasEverShown` after a run of updates is true exactly when it was true
      before or some update in the run decided to show. */
  lemma {:induction false} EverShownIffShownOnce(b: ChoiceBlock, pages: seq<Page>)
    ensures RunUpdates(b, pages).hasEverShown <==>
              b.hasEverShown || exists i :: 0 <= i < |pages| && ShowFor(b, pages[i])
    decreases |pages|
  {
    if |pages| > 0 {
      var b1 := UpdateVisibility(b, pages[0]);
      EverShownIffShownOnce(b1, pages[1..]);
      // ShowFor reads only the declaration, which updates keep.
      assert forall i :: 0 <= i < |pages[1..]| ==> ShowFor(b1, pages[1..][i]) == ShowFor(b, pages[i + 1]);
      if exists i :: 0 <= i < |pages| && ShowFor(b, pages[i]) {
        var i :| 0 <= i < |pages| && ShowFor(b, pages[i]);
        if i > 0 {
          assert ShowFor(b1, pages[1..][i - 1]);
        }
      }
    }
  }

  /** `hasEverShown` never turns off. */
  lemma EverShownMonotone(b: ChoiceBlock, pages: seq<Page>)
    requires b.hasEverShown
    ensures RunUpdates(b, pages).hasEverShown
  {
    EverShownIffShownOnce(b, pages);
  }

  /** After at least one update, a block is mounted exactly when it is not
      lazy or has shown at least once. */
  lemma MountedIffNotLazyOrShown(b: ChoiceBlock, page: Page)
    ensures var b' := UpdateVisibility(b, page);
            RenderChoice(b').Container? <==> !b.lazy || b'.hasEverShown
  {
  }

  /** Once a consistent block is mounted it stays mounted through any later
      updates, even when it stops showing: only its display toggles. */
  lemma StaysMounted(b: ChoiceBlock, ps: seq<Page>, qs: seq<Page>)
    requires Consistent(b)
    requires RenderChoice(RunUpdates(b, ps)).Container?
    ensures RenderChoice(RunUpdates(b, ps + qs)).Container?
  {
    var mid := RunUpdates(b, ps);
    RunUpdatesAppend(b, ps, qs);
    if mid.lazy {
      assert mid.hasEverShown;
      EverShownMonotone(mid, qs);
    }
  }

  /** A lazy block stays unmounted through a run of updates exactly when no
      update in the run decided to show it. */
  lemma LazyUnmountedUntilShown(key: string, values: Value, unset: bool, pages: seq<Page>)
    ensures var b := RunUpdates(MountChoice(key, values, unset, true), pages);
            RenderChoice(b).Nothing? <==>
              forall i :: 0 <= i < |pages| ==> !ShowFor(MountChoice(key, values, unset, true), pages[i])
  {
    var b0 := MountChoice(key, values, unset, true);
    EverShownIffShownOnce(b0, pages);
  }

  /** An unset-mode block and a values block on the same key are never both
      showing: a match needs a value, and unset mode needs its absence. */
  lemma UnsetAndValuesExclusive(page: Page, key: string, values: Value,
                                lazy1: bool, lazy2: bool)
    ensures !(ShowFor(MountChoice(key, Undefined, true, lazy1), page)
              && ShowFor(MountChoice(key, values, false, lazy2), page))
  {
    if page.Some? && MatchesValues(page.value, key, values) {
      ChoiceStateProperties.MatchImpliesHasValue(page.value, key, values);
    }
  }

  // ---------------------------------------------------------------------------
  // Choose: selection flags

  /** A selectable card for `value` under `key`. */
  datatype ChooseCard = ChooseCard(key: string, value: Value, isSelected: bool, hasOptionTriggered: bool)

  /** The React `Choose` on mount: selected iff the current value is this
      card's value; triggered iff the key has a value. */
  function MountChoose(page: Page, key: string, value: Value): (c: ChooseCard)
    ensures c.key == key && c.value == value
    ensures c.isSelected <==> GetChoiceValue(page, key) == value
    ensures c.hasOptionTriggered <==> HasChoiceValue(page, key)
  {
    ChooseCard(key, value, GetChoiceValue(page, key) == value, HasChoiceValue(page, key))
  }

  /** The React `Choose` listener, given the new value: selected iff it is this
      card's value; the key now counts as triggered, whatever the value. */
  function ChooseNotified(c: ChooseCard, newValue: Value): (c': ChooseCard)
    ensures c'.key == c.key && c'.value == c.value
    ensures c'.isSelected <==> newValue == c.value
    ensures c'.hasOptionTriggered
  {
    c.(isSelected := newValue == c.value, hasOptionTriggered := true)
  }

  /** `createChoose.updateState`: both flags re-read from the page. */
  function ChooseRefreshed(c: ChooseCard, page: Page): (c': ChooseCard)
    ensures c'.key == c.key && c'.value == c.value
    ensures c'.isSelected <==> GetChoiceValue(page, c.key) == c.value
    ensures c'.hasOptionTriggered <==> HasChoiceValue(page, c.key)
  {
    c.(isSelected := GetChoiceValue(page, c.key) == c.value,
       hasOptionTriggered := HasChoiceValue(page, c.key))
  }

  /** Clicking a card triggers its own value under its key; there is no
      toggling off. */
  function ClickChoose(page: Page, c: ChooseCard, writable: bool, faulty: set<ListenerId>): (r: PageTriggered)
    ensures page.Some? ==> GetChoiceValue(r.page, c.key) == c.value
    ensures page.Some? ==> forall k :: k != c.key ==> GetChoiceValue(r.page, k) == GetChoiceValue(page, k)
    ensures page.Some? ==> |r.deliveries| == |ListenersOf(page.value, c.key)|
    ensures page.Some? ==> forall i :: 0 <= i < |r.deliveries| ==>
              && r.deliveries[i].listener == ListenersOf(page.value, c.key)[i]
              && r.deliveries[i].value == c.value
              && r.deliveries[i].oldValue == GetChoiceValue(page, c.key)
    ensures page.None? ==> r.page.None? && r.deliveries == []
  {
    TriggerChoice(page, c.key, c.value, writable, faulty)
  }

  datatype Appearance = Highlighted | Dimmed | Plain

  /** A selected card is highlighted; an unselected card is dimmed once its
      key has been chosen, plain before. */
  function CardAppearance(c: ChooseCard): (a: Appearance)
    ensures a == Highlighted <==> c.isSelected
    ensures a == Dimmed <==> !c.isSelected && c.hasOptionTriggered
  {
    if c.isSelected then Highlighted
    else if c.hasOptionTriggered then Dimmed
    else Plain
  }

  /** After a click on one card, the two implementations agree on which card
      of the key is selected; they agree on `hasOptionTriggered` exactly when
      the clicked value is neither `undefined` nor `null` (the React listener
      sets it unconditionally, the script re-reads `hasValue`). */
  lemma ChooseImplementationsAgree(m: Manager, clicked: ChooseCard, other: ChooseCard,
                                   writable: bool, faulty: set<ListenerId>)
    requires other.key == clicked.key
    ensures var after := ClickChoose(Some(m), clicked, writable, faulty).page;
            && ChooseNotified(other, clicked.value).isSelected == ChooseRefreshed(other, after).isSelected
            && (ChooseNotified(other, clicked.value).hasOptionTriggered
                  == ChooseRefreshed(other, after).hasOptionTriggered
                <==> !IsNullish(clicked.value))
  {
  }

  /** After a click, the clicked card is selected and every card of the same
      key showing a different value is not; when the value is a real choice
      those cards are dimmed. */
  lemma ClickSelectsOnlyClicked(m: Manager, clicked: ChooseCard, other: ChooseCard,
                                writable: bool, faulty: set<ListenerId>)
    requires other.key == clicked.key && other.value != clicked.value
    ensures var after := ClickChoose(Some(m), clicked, writable, faulty).page;
            && ChooseRefreshed(clicked, after).isSelected
            && !ChooseRefreshed(other, after).isSelected
            && (!IsNullish(clicked.value) ==> CardAppearance(ChooseRefreshed(other, after)) == Dimmed)
  {
  }

  // ---------------------------------------------------------------------------
  // Observe

  /** `Observe` renders its children exactly while the key matches its
      values; it has no unset mode and no lazy gate. */
  function ObserveRendered(page: Page, key: string, values: Value): (shown: bool)
    ensures shown <==> MatchesChoiceValues(page, key, values)
    ensures shown ==> HasChoiceValue(page, key)
  {
    if MatchesChoiceValues(page, key, values) then
      ChoiceStateProperties.MatchImpliesHasValue(page.value, key, values);
      true
    else
      false
  }

  /** An observer shows exactly what a non-lazy values-mode block for the same
      key and values shows after an update, and it never shows together with
      an unset-mode block of its key. */
  lemma ObserveAgreesWithChoice(page: Page, key: string, values: Value, b: ChoiceBlock)
    ensures ObserveRendered(page, key, values)
              == UpdateVisibility(MountChoice(key, values, false, false), page).shouldShow
    ensures RenderChoice(UpdateVisibility(MountChoice(key, values, false, false), page))
              == Container(ObserveRendered(page, key, values))
    ensures b.key == key && b.unset ==>
              !(ObserveRendered(page, key, values) && UpdateVisibility(b, page).shouldShow)
  {
  }
}

=== FILE: choice_globals.dfy ===
/** The page-level wrappers (`triggerChoice`, `getChoiceValue`,
    `listenToChoice`, `hasChoiceValue`, `matchesChoiceValues`) through which
    every binding reaches the engine. Each delegates to the page's manager and
    falls back to a safe default when there is none: nothing happens, the
    value is `undefined`, the answer is `false`, the unsubscribe does nothing. */
module ChoiceGlobals {
  import opened JsValues
  import opened Wrappers
  import opened ChoiceState
  import ChoiceStateProperties

  /** The page's manager (`window.choiceStateManager`), if one exists. */
  type Page = Option<Manager>

  /** The function `listenToChoice` returns. */
  datatype Unsubscriber = NoOp | Remove(key: string, listener: ListenerId)

  datatype PageTriggered = PageTriggered(page: Page, deliveries: seq<Delivery>)

  datatype Listening = Listening(page: Page, unsubscribe: Unsubscriber)

  /** Script start-up: a manager is created, loading the stored document,
      only if the page has none yet; an existing one is kept. */
  function InitPage(page: Page, item: StoredItem): (p: Page)
    ensures p.Some?
    ensures page.Some? ==> p == page
    ensures page.None? ==> p == Some(NewManager(item))
  {
    if page.Some? then page else Some(NewManager(item))
  }

  /** `triggerChoice`: with a manager, the key now holds the value and its
      listeners are told; without one, nothing happens. */
  function TriggerChoice(page: Page, key: string, value: Value, writable: bool, faulty: set<ListenerId>)
    : (r: PageTriggered)
    ensures r.page.Some? <==> page.Some?
    ensures page.None? ==> r.deliveries == []
    ensures page.Some? ==> GetValue(r.page.value, key) == value
    ensures page.Some? ==> forall k :: k != key ==> GetValue(r.page.value, k) == GetValue(page.value, k)
    ensures page.Some? ==> |r.deliveries| == |ListenersOf(page.value, key)|
    ensures page.Some? ==> forall i :: 0 <= i < |r.deliveries| ==>
              && r.deliveries[i].listener == ListenersOf(page.value, key)[i]
              && r.deliveries[i].value == value
              && r.deliveries[i].oldValue == GetValue(page.value, key)
  {
    match page
    case None => PageTriggered(None, [])
    case Some(m) =>
      var t := Trigger(m, key, value, writable, faulty);
      PageTriggered(Some(t.manager), t.deliveries)
  }

  /** `getChoiceValue`: the manager's value, `undefined` without one. */
  function GetChoiceValue(page: Page, key: string): (v: Value)
    ensures page.None? ==> v == Undefined
    ensures page.Some? ==> v == GetValue(page.value, key)
  {
    if page.Some? then GetValue(page.value, key) else Undefined
  }

  /** `hasChoiceValue`: whether the page's value for the key is neither
      `undefined` nor `null` (so never without a manager). */
  function HasChoiceValue(page: Page, key: string): (r: bool)
    ensures r <==> !IsNullish(GetChoiceValue(page, key))
  {
    page.Some? && HasValue(page.value, key)
  }

  /** `matchesChoiceValues`: the manager's answer, false without one. */
  function MatchesChoiceValues(page: Page, key: string, values: Value): (r: bool)
    ensures r ==> page.Some? && HasChoiceValue(page, key)
    ensures page.Some? ==> (r <==> MatchesValues(page.value, key, values))
  {
    page.Some? && MatchesValues(page.value, key, values)
  }

  /** `listenToChoice`: registers with the manager and hands back its
      unsubscribe; without a manager, a no-op. */
  function ListenToChoice(page: Page, key: string, id: ListenerId): (l: Listening)
    ensures l.page.Some? <==> page.Some?
    ensures l.unsubscribe.NoOp? <==> page.None?
    ensures page.Some? ==> ListenersOf(l.page.value, key) == ListenersOf(page.value, key) + [id]
    ensures page.Some? ==> forall k :: k != key ==> ListenersOf(l.page.value, k) == ListenersOf(page.value, k)
  {
    match page
    case None => Listening(None, NoOp)
    case Some(m) => Listening(Some(Listen(m, key, id)), Remove(key, id))
  }

  /** Calling the function `listenToChoice` returned. */
  function RunUnsubscriber(page: Page, u: Unsubscriber): (p: Page)
    ensures p.Some? <==> page.Some?
    ensures u.NoOp? ==> p == page
    ensures page.Some? && u.Remove? ==>
              ListenersOf(p.value, u.key) == RemoveFirst(ListenersOf(page.value, u.key), u.listener)
    ensures page.Some? ==> p.value.state == page.value.state && p.value.stored == page.value.stored
    ensures page.Some? ==> forall k :: u.Remove? && k != u.key ==> ListenersOf(p.value, k) == ListenersOf(page.value, k)
  {
    match (page, u)
    case (Some(m), Remove(key, id)) => Some(Unsubscribe(m, key, id))
    case _ => page
  }

  /** Without a manager every wrapper degrades to its safe default, and
      nothing any of them does creates one. */
  lemma NoManagerDefaults(key: string, value: Value, values: Value, id: ListenerId,
                          writable: bool, faulty: set<ListenerId>, u: Unsubscriber)
    ensures TriggerChoice(None, key, value, writable, faulty) == PageTriggered(None, [])
    ensures GetChoiceValue(None, key) == Undefined
    ensures !HasChoiceValue(None, key)
    ensures !MatchesChoiceValues(None, key, values)
    ensures ListenToChoice(None, key, id) == Listening(None, NoOp)
    ensures RunUnsubscriber(None, u) == None
  {
  }

  /** With a manager, the wrappers are the manager's own operations. */
  lemma WrappersDelegate(m: Manager, key: string, value: Value, values: Value, id: ListenerId,
                         writable: bool, faulty: set<ListenerId>)
    ensures var t := Trigger(m, key, value, writable, faulty);
            TriggerChoice(Some(m), key, value, writable, faulty) == PageTriggered(Some(t.manager), t.deliveries)
    ensures GetChoiceValue(Some(m), key) == GetValue(m, key)
    ensures HasChoiceValue(Some(m), key) == HasValue(m, key)
    ensures MatchesChoiceValues(Some(m), key, values) == MatchesValues(m, key, values)
    ensures ListenToChoice(Some(m), key, id) == Listening(Some(Listen(m, key, id)), Remove(key, id))
  {
  }

  /** The unsubscribe handed out by `listenToChoice` undoes that registration. */
  lemma ListenToChoiceThenUnsubscribe(page: Page, key: string, id: ListenerId)
    requires page.Some? ==> id !in ListenersOf(page.value, key)
    ensures var l := ListenToChoice(page, key, id);
            var after := RunUnsubscriber(l.page, l.unsubscribe);
            after.Some? == page.Some?
            && (page.Some? ==> ListenersOf(after.value, key) == ListenersOf(page.value, key))
  {
    if page.Some? {
      ChoiceStateProperties.ListenThenUnsubscribeRestores(page.value, key, id);
    }
  }
}

=== FILE: choice_scenarios.dfy ===
/** A worked page session: a lazy block waiting for the value `enterprise`
    while the choice flips between `free` and `enterprise`. */
module ChoiceScenarios {
  import opened JsValues
  import opened Wrappers
  import opened Text
  import opened ChoiceState
  import opened ChoiceGlobals
  import opened ChoiceBindings

  lemma EnterpriseSplit()
    ensures Split("enterprise", ',') == ["enterprise"]
  {
    SplitUnique("enterprise", ["enterprise"], ',');
  }

  lemma EnterpriseTrimmed()
    ensures Trim("enterprise") == "enterprise"
  {
    assert !IsJsWhitespace('e');
    assert SkipLeading("enterprise", 0) == 0;
    assert SkipTrailing("enterprise", 0, 10) == 10;
  }

  lemma EnterprisePieces()
    ensures AllowedValues("enterprise") == ["enterprise"]
  {
    EnterpriseSplit();
    EnterpriseTrimmed();
    var vs := AllowedValues("enterprise");
    assert |vs| == 1 && vs[0] == "enterprise";
  }

  /** A fresh page without a stored document matches nothing for `tier`. */
  lemma FreshPageMatchesNothing()
    ensures !MatchesChoiceValues(InitPage(None, NoItem), "tier", Str("enterprise"))
  {
    var m := InitPage(None, NoItem).value;
    assert m.state == map[];
    assert GetValue(m, "tier") == Undefined;
  }

  /** With `free` chosen, a block waiting for `enterprise` does not match. */
  lemma FreeDoesNotMatch(p: Page)
    requires p.Some? && GetValue(p.value, "tier") == Str("free")
    ensures !MatchesChoiceValues(p, "tier", Str("enterprise"))
  {
    EnterprisePieces();
    assert "free" != "enterprise" by {
      assert "free"[0] != "enterprise"[0];
    }
  }

  /** With `enterprise` chosen, a block waiting for `enterprise` matches. */
  lemma EnterpriseMatches(p: Page)
    requires p.Some? && GetValue(p.value, "tier") == Str("enterprise")
    ensures MatchesChoiceValues(p, "tier", Str("enterprise"))
  {
    EnterprisePieces();
    assert "enterprise" in AllowedValues("enterprise");
  }

  /** On a fresh page the lazy block renders nothing; choosing `free` keeps it
      unmounted; choosing `enterprise` mounts and displays it; choosing `free`
      again hides it but leaves it mounted. */
  lemma LazyBlockSession()
    ensures
      var p0 := InitPage(None, NoItem);
      var b1 := UpdateVisibility(MountChoice("tier", Str("enterprise"), false, true), p0);
      var p1 := TriggerChoice(p0, "tier", Str("free"), true, {}).page;
      var b2 := UpdateVisibility(b1, p1);
      var p2 := TriggerChoice(p1, "tier", Str("enterprise"), true, {}).page;
      var b3 := UpdateVisibility(b2, p2);
      var p3 := TriggerChoice(p2, "tier", Str("free"), true, {}).page;
      var b4 := UpdateVisibility(b3, p3);
      && RenderChoice(b1) == Nothing
      && RenderChoice(b2) == Nothing
      && RenderChoice(b3) == Container(true)
      && RenderChoice(b4) == Container(false)
  {
    var p0 := InitPage(None, NoItem);
    var b1 := UpdateVisibility(MountChoice("tier", Str("enterprise"), false, true), p0);
    FreshPageMatchesNothing();
    assert !b1.shouldShow && !b1.hasEverShown;
    var p1 := TriggerChoice(p0, "tier", Str("free"), true, {}).page;
    var b2 := UpdateVisibility(b1, p1);
    FreeDoesNotMatch(p1);
    assert !b2.shouldShow && !b2.hasEverShown;
    var p2 := TriggerChoice(p1, "tier", Str("enterprise"), true, {}).page;
    var b3 := UpdateVisibility(b2, p2);
    EnterpriseMatches(p2);
    assert b3.shouldShow && b3.hasEverShown;
    var p3 := TriggerChoice(p2, "tier", Str("free"), true, {}).page;
    var b4 := UpdateVisibility(b3, p3);
    FreeDoesNotMatch(p3);
    assert !b4.shouldShow && b4.hasEverShown;
  }
}

=== FILE: choice_state.dfy ===
/** The choice-state engine (`ChoiceStateManager`): a snapshot of the value
    chosen for each option key, persisted as one document under a fixed
    storage key, and an ordered list of listeners per key that `trigger`
    notifies.

    The engine is a value: every operation returns the next manager instead
    of mutating one. A listener is identified by its callback, a `ListenerId`;
    registering the same callback twice gives two registrations of the same id,
    as pushing the same function twice does in `listen`. */
module ChoiceState {
  import opened JsValues
  import opened Text

  /** The storage key under which the snapshot document is kept. */
  const StorageKey := "com.box.developer.choice_events"

  /** Option key to chosen value. A key may be present with value `undefined`. */
  type Snapshot = map<string, Value>

  /** The identity of a listener callback. */
  type ListenerId = nat

  /** What reading the storage key yields: a read that throws (storage
      disabled or access denied), no item (or an empty one: both are falsy),
      text that is not JSON, or a parsed JSON object. */
  datatype StoredItem = Unreadable | NoItem | Unparseable | Document(doc: Snapshot)

  datatype Manager = Manager(
    state: Snapshot,
    listeners: map<string, seq<ListenerId>>,
    stored: StoredItem)

  /** One call of a listener during `trigger`: the listener, the arguments
      `(value, oldValue)` it received, and whether it threw (the throw is
      caught and logged, and the next listener still runs). */
  datatype Delivery = Delivery(listener: ListenerId, value: Value, oldValue: Value, threw: bool)

  datatype Triggered = Triggered(manager: Manager, deliveries: seq<Delivery>)

  /** `loadState`: the parsed document, or the empty snapshot on any failure. */
  function LoadState(item: StoredItem): (s: Snapshot)
    ensures item.Document? ==> s == item.doc
    ensures !item.Document? ==> s == map[]
  {
    match item
    case Document(doc) => doc
    case _ => map[]
  }

  /** The constructor: state loaded from storage, no listeners. */
  function NewManager(item: StoredItem): (m: Manager)
    ensures m.listeners == map[]
    ensures m.stored == item
    ensures m.state == LoadState(item)
    ensures item.Document? ==> m.state == item.doc
    ensures !item.Document? ==> m.state == map[]
  {
    Manager(LoadState(item), map[], item)
  }

  /** `JSON.stringify` of the snapshot, seen as the document it encodes:
      entries whose value is `undefined` are omitted, all others are kept. */
  function Stringify(s: Snapshot): (d: Snapshot)
    ensures forall k :: k in d <==> k in s && !s[k].Undefined?
    ensures forall k :: k in d ==> d[k] == s[k]
  {
    map k | k in s && !s[k].Undefined? :: s[k]
  }

  /** `saveState`: writes the document when storage accepts it; when the write
      throws, the stored item is untouched. The in-memory state and the
      listeners never change. */
  function SaveState(m: Manager, writable: bool): (m': Manager)
    ensures m'.state == m.state && m'.listeners == m.listeners
    ensures writable ==> m'.stored == Document(Stringify(m.state))
    ensures !writable ==> m'.stored == m.stored
  {
    if writable then m.(stored := Document(Stringify(m.state))) else m
  }

  /** `getValue`: the stored value, `undefined` for a key never set. */
  function GetValue(m: Manager, key: string): (v: Value)
    ensures key in m.state ==> v == m.state[key]
    ensures key !in m.state ==> v == Undefined
  {
    if key in m.state then m.state[key] else Undefined
  }

  /** `hasValue`: the key is present and holds neither `undefined` nor `null`. */
  function HasValue(m: Manager, key: string): (r: bool)
    ensures r <==> !IsNullish(GetValue(m, key))
  {
    key in m.state && !m.state[key].Undefined? && !m.state[key].Null?
  }

  /** The allowed values of a comma-separated list, each trimmed. */
  function AllowedValues(list: string): (vs: seq<string>)
    ensures |vs| == |Split(list, ',')|
    ensures forall i :: 0 <= i < |vs| ==> vs[i] == Trim(Split(list, ',')[i])
  {
    var pieces := Split(list, ',');
    seq(|pieces|, i requires 0 <= i < |pieces| => Trim(pieces[i]))
  }

  /** `matchesValues`: false when the current value is falsy or `values` is
      not a non-empty string; otherwise whether the current value is one of the
      trimmed comma-separated entries (exact, case-sensitive comparison). */
  function MatchesValues(m: Manager, key: string, values: Value): (r: bool)
    ensures r ==> Truthy(GetValue(m, key)) && Truthy(values) && values.Str?
    ensures r ==> GetValue(m, key).Str? && GetValue(m, key).s in AllowedValues(values.s)
    ensures (&& Truthy(values) && values.Str? && GetValue(m, key).Str? && GetValue(m, key).s != ""
             && GetValue(m, key).s in AllowedValues(values.s)) ==> r
  {
    var current := GetValue(m, key);
    if !Truthy(current) then false
    else if !Truthy(values) || !values.Str? then false
    else current.Str? && current.s in AllowedValues(values.s)
  }

  /** `getState`: a copy of the snapshot. */
  function GetState(m: Manager): (s: Snapshot)
    ensures forall k :: k in s <==> k in m.state
    ensures forall k :: k in s ==> s[k] == GetValue(m, k)
  {
    m.state
  }

  /** The listeners registered for `key` (`listeners.get(key) || []`). */
  function ListenersOf(m: Manager, key: string): (ids: seq<ListenerId>)
    ensures key in m.listeners ==> ids == m.listeners[key]
    ensures key !in m.listeners ==> ids == []
  {
    if key in m.listeners then m.listeners[key] else []
  }

  /** Calls every listener in order with `(value, oldValue)`; a listener in
      `faulty` throws, which is logged and does not stop the ones after it. */
  function Notify(ids: seq<ListenerId>, value: Value, oldValue: Value, faulty: set<ListenerId>)
    : (ds: seq<Delivery>)
    ensures |ds| == |ids|
    ensures forall i :: 0 <= i < |ids| ==>
              ds[i].listener == ids[i] && ds[i].value == value && ds[i].oldValue == oldValue
    ensures forall i :: 0 <= i < |ids| ==> (ds[i].threw <==> ids[i] in faulty)
  {
    if |ids| == 0 then []
    else [Delivery(ids[0], value, oldValue, ids[0] in faulty)] + Notify(ids[1..], value, oldValue, faulty)
  }

  /** `trigger(key, value)`: records the old value, overwrites the key, saves
      (a failed save leaves the stored item as it was), then notifies the
      key's listeners in registration order with `(value, oldValue)`.
      The resulting manager holds `value` under `key` and is otherwise the
      same; every listener is called whatever the others do. */
  function Trigger(m: Manager, key: string, value: Value, writable: bool, faulty: set<ListenerId>)
    : (t: Triggered)
    ensures key in t.manager.state && GetValue(t.manager, key) == value
    ensures forall k :: k != key ==> (k in t.manager.state <==> k in m.state)
    ensures forall k :: k != key ==> GetValue(t.manager, k) == GetValue(m, k)
    ensures t.manager.listeners == m.listeners
    ensures writable ==> t.manager.stored == Document(Stringify(t.manager.state))
    ensures !writable ==> t.manager.stored == m.stored
    ensures |t.deliveries| == |ListenersOf(m, key)|
    ensures forall i :: 0 <= i < |t.deliveries| ==>
              && t.deliveries[i].listener == ListenersOf(m, key)[i]
              && t.deliveries[i].value == value
              && t.deliveries[i].oldValue == GetValue(m, key)
  {
    var oldValue := GetValue(m, key);
    var written := m.(state := m.state[key := value]);
    var saved := SaveState(written, writable);
    Triggered(saved, Notify(ListenersOf(m, key), value, oldValue, faulty))
  }

  /** `listen(key, callback)`: appends the callback to the key's list
      (creating the list on first use). Other keys and the state are untouched. */
  function Listen(m: Manager, key: string, id: ListenerId): (m': Manager)
    ensures key in m'.listeners && ListenersOf(m', key) == ListenersOf(m, key) + [id]
    ensures forall k :: k != key ==> (k in m'.listeners <==> k in m.listeners)
    ensures forall k :: k != key ==> ListenersOf(m', k) == ListenersOf(m, k)
    ensures m'.state == m.state && m'.stored == m.stored
  {
    var existing := if key in m.listeners then m.listeners[key] else [];
    m.(listeners := m.listeners[key := existing + [id]])
  }

  /** `indexOf`: the first position holding `x`, or -1. */
  function IndexOf(s: seq<ListenerId>, x: ListenerId): (i: int)
    ensures -1 <= i < |s|
    ensures i == -1 <==> x !in s
    ensures 0 <= i ==> s[i] == x && x !in s[..i]
  {
    if |s| == 0 then -1
    else if s[0] == x then 0
    else
      var j := IndexOf(s[1..], x);
      if j == -1 then -1
      else
        assert s[..j + 1] == [s[0]] + s[1..][..j];
        j + 1
  }

  /** `splice(indexOf(x), 1)` when found: the first registration of `x` is
      removed and the order of the others is kept; without `x`, nothing changes. */
  function RemoveFirst(s: seq<ListenerId>, x: ListenerId): (r: seq<ListenerId>)
    ensures x !in s ==> r == s
    ensures x in s ==> multiset(r) == multiset(s) - multiset{x}
    ensures x in s ==> exists i :: 0 <= i < |s| && s[i] == x && x !in s[..i] && r == s[..i] + s[i + 1..]
  {
    var i := IndexOf(s, x);
    if i > -1 then
      assert s == s[..i] + [s[i]] + s[i + 1..];
      s[..i] + s[i + 1..]
    else s
  }

  /** The unsubscribe function `listen` returns: removes the first
      registration of the callback under the key; a key that was never
      listened to is left alone. */
  function Unsubscribe(m: Manager, key: string, id: ListenerId): (m': Manager)
    ensures ListenersOf(m', key) == RemoveFirst(ListenersOf(m, key), id)
    ensures forall k :: k != key ==> (k in m'.listeners <==> k in m.listeners)
    ensures forall k :: k != key ==> ListenersOf(m', k) == ListenersOf(m, k)
    ensures m'.state == m.state && m'.stored == m.stored
    ensures key !in m.listeners ==> m' == m
  {
    if key in m.listeners then
      m.(listeners := m.listeners[key := RemoveFirst(m.listeners[key], id)])
    else m
  }
}

=== FILE: choice_state_properties.dfy ===
/** Properties of the choice-state engine that relate several operations:
    persistence round trip, last-write-wins, fault isolation, the
    subscribe/unsubscribe contract and the meaning of `matchesValues`. */
module ChoiceStateProperties {
  import opened JsValues
  import opened Text
  import opened ChoiceState

  // ---------------------------------------------------------------------------
  // Persistence

  /** Saving and reloading loses nothing a caller can observe: `undefined`
      entries are dropped by serialisation, but `getValue` of a missing key is
      `undefined` too, so every key reads back the same value, and `hasValue`
      and `matchesValues` agree with the saved manager. */
  lemma SaveThenLoadRoundTrip(m: Manager)
    ensures var reloaded := NewManager(SaveState(m, true).stored);
            forall k :: && GetValue(reloaded, k) == GetValue(m, k)
                        && HasValue(reloaded, k) == HasValue(m, k)
                        && (forall values :: MatchesValues(reloaded, k, values) == MatchesValues(m, k, values))
  {
    var reloaded := NewManager(SaveState(m, true).stored);
    assert reloaded.state == Stringify(m.state);
    forall k
      ensures GetValue(reloaded, k) == GetValue(m, k)
      ensures HasValue(reloaded, k) == HasValue(m, k)
      ensures forall values :: MatchesValues(reloaded, k, values) == MatchesValues(m, k, values)
    {
      if k in m.state && m.state[k].Undefined? {
        assert k !in reloaded.state;
      }
    }
  }

  /** A `trigger` whose save fails leaves the same in-memory state, the same
      listeners and the same notifications as one whose save succeeds: memory
      is authoritative, persistence is best effort. */
  lemma FailedSaveKeepsMemory(m: Manager, key: string, value: Value, faulty: set<ListenerId>)
    ensures var saved := Trigger(m, key, value, true, faulty);
            var unsaved := Trigger(m, key, value, false, faulty);
            && unsaved.manager.state == saved.manager.state
            && unsaved.manager.listeners == saved.manager.listeners
            && unsaved.deliveries == saved.deliveries
            && unsaved.manager.stored == m.stored
  {
  }

  // ---------------------------------------------------------------------------
  // Trigger

  /** A throwing listener changes nothing but its own `threw` flag: the
      resulting manager, and who is called with what, do not depend on which
      listeners throw. */
  lemma TriggerIsolatesFaults(m: Manager, key: string, value: Value, writable: bool,
                              faulty1: set<ListenerId>, faulty2: set<ListenerId>)
    ensures var t1 := Trigger(m, key, value, writable, faulty1);
            var t2 := Trigger(m, key, value, writable, faulty2);
            && t1.manager == t2.manager
            && |t1.deliveries| == |t2.deliveries|
            && forall i :: 0 <= i < |t1.deliveries| ==>
                 t1.deliveries[i].(threw := false) == t2.deliveries[i].(threw := false)
  {
  }

  /** Last write wins: after `trigger(k, a)` then `trigger(k, b)` the key
      holds `b`, and every listener's second call receives `(b, a)`. */
  lemma LastWriteWins(m: Manager, key: string, a: Value, b: Value, w1: bool, w2: bool,
                      f1: set<ListenerId>, f2: set<ListenerId>)
    ensures var t1 := Trigger(m, key, a, w1, f1);
            var t2 := Trigger(t1.manager, key, b, w2, f2);
            && GetValue(t2.manager, key) == b
            && |t2.deliveries| == |ListenersOf(m, key)|
            && forall i :: 0 <= i < |t2.deliveries| ==>
                 t2.deliveries[i].listener == ListenersOf(m, key)[i]
                 && t2.deliveries[i].value == b && t2.deliveries[i].oldValue == a
  {
    var t1 := Trigger(m, key, a, w1, f1);
    assert ListenersOf(t1.manager, key) == ListenersOf(m, key);
  }

  /** Re-triggering the value a key already holds is not short-circuited:
      the state is as after the first trigger, and every listener is called
      again, with old and new value equal. */
  lemma RetriggerStillNotifies(m: Manager, key: string, value: Value, writable: bool, faulty: set<ListenerId>)
    ensures var t1 := Trigger(m, key, value, writable, faulty);
            var t2 := Trigger(t1.manager, key, value, writable, faulty);
            && t2.manager.state == t1.manager.state
            && |t2.deliveries| == |ListenersOf(m, key)|
            && forall i :: 0 <= i < |t2.deliveries| ==>
                 t2.deliveries[i].value == value && t2.deliveries[i].oldValue == value
  {
    var t1 := Trigger(m, key, value, writable, faulty);
    assert ListenersOf(t1.manager, key) == ListenersOf(m, key);
    assert t1.manager.state[key := value] == t1.manager.state;
  }

  /** After a trigger the key has a value exactly when the value written is
      neither `undefined` nor `null`. */
  lemma HasValueAfterTrigger(m: Manager, key: string, value: Value, writable: bool, faulty: set<ListenerId>)
    ensures HasValue(Trigger(m, key, value, writable, faulty).manager, key) <==> !IsNullish(value)
  {
  }

  // ---------------------------------------------------------------------------
  // matchesValues

  /** `c` is listed in `list`: some way of writing `list` as comma-free pieces
      joined by commas has a piece that trims to `c`. */
  ghost predicate ListedIn(c: string, list: string) {
    exists pieces :: && |pieces| >= 1 && SeparatorFree(pieces, ',')
                     && Join(pieces, ',') == list
                     && exists i :: 0 <= i < |pieces| && Trim(pieces[i]) == c
  }

  /** `matchesValues` holds exactly when the current value is a non-empty
      string, the list is a non-empty string, and the current value is listed
      in it: case-sensitive equality with one trimmed comma-separated entry. */
  lemma MatchesValuesMeaning(m: Manager, key: string, values: Value)
    ensures MatchesValues(m, key, values) <==>
              && GetValue(m, key).Str? && GetValue(m, key).s != ""
              && values.Str? && values.s != ""
              && ListedIn(GetValue(m, key).s, values.s)
  {
    var current := GetValue(m, key);
    if current.Str? && current.s != "" && values.Str? && values.s != "" {
      assert MatchesValues(m, key, values) == (current.s in AllowedValues(values.s));
      if current.s in AllowedValues(values.s) {
        AllowedIsListed(current.s, values.s);
      }
      if ListedIn(current.s, values.s) {
        var ps :| && |ps| >= 1 && SeparatorFree(ps, ',') && Join(ps, ',') == values.s
                  && exists i :: 0 <= i < |ps| && Trim(ps[i]) == current.s;
        SplitUnique(values.s, ps, ',');
        var i :| 0 <= i < |ps| && Trim(ps[i]) == current.s;
        assert AllowedValues(values.s)[i] == current.s;
      }
    } else {
      assert !MatchesValues(m, key, values);
    }
  }

  lemma AllowedIsListed(c: string, list: string)
    requires c in AllowedValues(list)
    ensures ListedIn(c, list)
  {
    var pieces := Split(list, ',');
    var i :| 0 <= i < |AllowedValues(list)| && AllowedValues(list)[i] == c;
    assert Trim(pieces[i]) == c;
  }

  /** A match implies a value: a block shown for a list of values is never
      shown while the key is unset. */
  lemma MatchImpliesHasValue(m: Manager, key: string, values: Value)
    requires MatchesValues(m, key, values)
    ensures HasValue(m, key)
  {
  }

  /** A key never triggered has no value and matches no list. */
  lemma FreshKeyMatchesNothing(m: Manager, key: string, values: Value)
    requires key !in m.state
    ensures !HasValue(m, key) && !MatchesValues(m, key, values)
  {
  }

  /** Entries are trimmed but compared case-sensitively: with `"eu"` chosen,
      `"us, eu"` matches; with `"EU"` chosen, it does not. */
  lemma MatchesTrimmedCaseSensitive(m: Manager, key: string)
    ensures MatchesValues(Trigger(m, key, Str("eu"), true, {}).manager, key, Str("us, eu"))
    ensures !MatchesValues(Trigger(m, key, Str("EU"), true, {}).manager, key, Str("us, eu"))
  {
    ExampleEntries();
  }

  /** The entries of `"us, eu"` are `"us"` and `"eu"`. */
  lemma ExampleEntries()
    ensures AllowedValues("us, eu") == ["us", "eu"]
  {
    ExampleSplit();
    ExampleTrims();
    var vs := AllowedValues("us, eu");
    assert |vs| == 2 && vs[0] == "us" && vs[1] == "eu";
  }

  lemma ExampleSplit()
    ensures Split("us, eu", ',') == ["us", " eu"]
  {
    var pieces := ["us", " eu"];
    assert pieces[1..] == [" eu"];
    assert Join(pieces, ',') == "us, eu";
    SplitUnique("us, eu", pieces, ',');
  }

  lemma ExampleTrims()
    ensures Trim("us") == "us" && Trim(" eu") == "eu"
  {
    assert IsJsWhitespace(' ') && !IsJsWhitespace('e') && !IsJsWhitespace('u') && !IsJsWhitespace('s');
    assert SkipLeading(" eu", 1) == 1;
    assert SkipLeading(" eu", 0) == 1;
    assert SkipTrailing(" eu", 1, 3) == 3;
    assert SkipLeading("us", 0) == 0;
    assert SkipTrailing("us", 0, 2) == 2;
  }

  // ---------------------------------------------------------------------------
  // listen / unsubscribe

  /** Listening and then calling the returned unsubscribe restores the key's
      listener list, provided the callback was not already registered there. */
  lemma ListenThenUnsubscribeRestores(m: Manager, key: string, id: ListenerId)
    requires id !in ListenersOf(m, key)
    ensures ListenersOf(Unsubscribe(Listen(m, key, id), key, id), key) == ListenersOf(m, key)
  {
    var s := ListenersOf(m, key);
    assert IndexOf(s + [id], id) == |s|;
    assert (s + [id])[..|s|] == s;
  }

  /** Calling an unsubscribe a second time is a no-op when the callback was
      registered at most once under the key. */
  lemma UnsubscribeTwiceIsOnce(m: Manager, key: string, id: ListenerId)
    requires multiset(ListenersOf(m, key))[id] <= 1
    ensures Unsubscribe(Unsubscribe(m, key, id), key, id) == Unsubscribe(m, key, id)
  {
    var once := Unsubscribe(m, key, id);
    assert id !in ListenersOf(once, key) by {
      if id in ListenersOf(m, key) {
        assert multiset(ListenersOf(once, key))[id] == 0;
      }
    }
  }

  /** The same callback registered twice under a key is removed by the
      second call of one unsubscribe: removal goes by callback identity, not
      by registration. */
  lemma UnsubscribeTwiceRemovesDuplicate()
    ensures var m := Manager(map[], map["plan" := [7, 7]], NoItem);
            && ListenersOf(Unsubscribe(m, "plan", 7), "plan") == [7]
            && ListenersOf(Unsubscribe(Unsubscribe(m, "plan", 7), "plan", 7), "plan") == []
  {
    var m := Manager(map[], map["plan" := [7, 7]], NoItem);
    assert IndexOf([7, 7], 7) == 0;
    assert IndexOf([7], 7) == 0;
  }

  /** A callback registered once and then unsubscribed is not called by any
      later trigger of that key. */
  lemma UnsubscribedIsNotNotified(m: Manager, key: string, id: ListenerId, value: Value,
                                  writable: bool, faulty: set<ListenerId>)
    requires multiset(ListenersOf(m, key))[id] <= 1
    ensures var t := Trigger(Unsubscribe(m, key, id), key, value, writable, faulty);
            forall i :: 0 <= i < |t.deliveries| ==> t.deliveries[i].listener != id
  {
    var after := Unsubscribe(m, key, id);
    assert id !in ListenersOf(after, key) by {
      if id in ListenersOf(m, key) {
        assert multiset(ListenersOf(after, key))[id] == 0;
      }
    }
  }

  /** A newly registered callback is called last by the next trigger of its
      key, with the new and the previous value. */
  lemma ListenThenTriggerNotifiesLast(m: Manager, key: string, id: ListenerId, value: Value,
                                      writable: bool, faulty: set<ListenerId>)
    ensures var t := Trigger(Listen(m, key, id), key, value, writable, faulty);
            && |t.deliveries| == |ListenersOf(m, key)| + 1
            && t.deliveries[|t.deliveries| - 1].listener == id
            && t.deliveries[|t.deliveries| - 1].value == value
            && t.deliveries[|t.deliveries| - 1].oldValue == GetValue(m, key)
  {
  }
}

=== FILE: js_values.dfy ===
/** The JavaScript primitive values the modelled code stores, compares and
    tests for truthiness.

    Numbers are modelled by `int`: NaN and fractional numbers are not
    represented. Objects and arrays are not represented either; the only place
    the modelled code handles them (the proxy's request payloads) looks at
    nothing but their truthiness, which a truthy primitive stands in for.
    On this type Dafny's `==` coincides with JavaScript's `===`. */
module JsValues {

  datatype Value = Undefined | Null | Bool(b: bool) | Num(n: int) | Str(s: string)

  /** JavaScript's ToBoolean: `undefined`, `null`, `false`, `0` and `""` are falsy. */
  predicate Truthy(v: Value) {
    match v
    case Undefined => false
    case Null => false
    case Bool(b) => b
    case Num(n) => n != 0
    case Str(s) => s != ""
  }

  /** `v === undefined || v === null`. */
  predicate IsNullish(v: Value) {
    v.Undefined? || v.Null?
  }
}

=== FILE: progress_bar.dfy ===
/** The progress bar: which step the current URL path is on, and the numbered
    step links it renders. */
module ProgressBar {
  import opened Wrappers
  import opened Text

  /** `currentStep` before any detection: no step. */
  const InitialStep: nat := 0

  /** A page path with a leading `/` ensured (one is added only when missing). */
  function NormalizePagePath(page: string): (path: string)
    ensures StartsWith(path, "/")
    ensures EndsWith(path, page)
    ensures |page| <= |path| <= |page| + 1
  {
    if StartsWith(page, "/") then page
    else
      assert ("/" + page)[1..] == page;
      "/" + page
  }

  /** Normalising twice is normalising once. */
  lemma NormalizeIdempotent(page: string)
    ensures NormalizePagePath(NormalizePagePath(page)) == NormalizePagePath(page)
  {
  }

  /** A path that already starts with `/` is left exactly as it is, and one
      that does not gains exactly that one character. */
  lemma NormalizeAddsOnlyMissingSlash(page: string)
    ensures StartsWith(page, "/") ==> NormalizePagePath(page) == page
    ensures !StartsWith(page, "/") ==> NormalizePagePath(page) == "/" + page
  {
    var path := NormalizePagePath(page);
    if !StartsWith(page, "/") {
      assert path[1..] == page;
      assert path == [path[0]] + path[1..];
    }
  }

  /** The `findIndex` test: the current path ends with, or contains, the
      normalised page path. */
  predicate PageMatches(currentPath: string, page: string) {
    var path := NormalizePagePath(page);
    EndsWith(currentPath, path) || Includes(currentPath, path)
  }

  /** The `endsWith` test adds nothing: a page matches iff its normalised path
      occurs somewhere in the current path. */
  lemma PageMatchesIffIncluded(currentPath: string, page: string)
    ensures PageMatches(currentPath, page) <==> Includes(currentPath, NormalizePagePath(page))
  {
    var path := NormalizePagePath(page);
    if EndsWith(currentPath, path) {
      EndsWithImpliesIncludes(currentPath, path);
    }
  }

  /** The first index at or after `lo` holding `true`, or -1. */
  function FirstTrue(flags: seq<bool>, lo: nat): (i: int)
    requires lo <= |flags|
    ensures i == -1 || lo <= i < |flags|
    ensures i == -1 <==> forall k :: lo <= k < |flags| ==> !flags[k]
    ensures i != -1 ==> flags[i] && forall k :: lo <= k < i ==> !flags[k]
    decreases |flags| - lo
  {
    if lo == |flags| then -1
    else if flags[lo] then lo
    else FirstTrue(flags, lo + 1)
  }

  /** `pages.findIndex(...)`: the first page whose path matches, or -1. The
      callback has no effects, so testing the pages in order until the first
      match gives the same index as testing them all. */
  function FindStepIndex(pages: seq<string>, currentPath: string): (i: int)
    ensures -1 <= i < |pages|
    ensures i == -1 <==> forall k :: 0 <= k < |pages| ==> !PageMatches(currentPath, pages[k])
    ensures 0 <= i ==> PageMatches(currentPath, pages[i])
    ensures 0 <= i ==> forall k :: 0 <= k < i ==> !PageMatches(currentPath, pages[k])
  {
    FirstTrue(MatchFlags(pages, currentPath), 0)
  }

  /** The `findIndex` test applied to each page. */
  function MatchFlags(pages: seq<string>, currentPath: string): (flags: seq<bool>)
    ensures |flags| == |pages|
    ensures forall k :: 0 <= k < |pages| ==> flags[k] == PageMatches(currentPath, pages[k])
  {
    seq(|pages|, k requires 0 <= k < |pages| => PageMatches(currentPath, pages[k]))
  }

  /** The detection effect: with pages, a match sets the 1-based step of the
      first matching page; otherwise (no pages, or no match) the step is left
      as it was. */
  function DetectStep(currentStep: nat, pages: seq<string>, currentPath: string): (step: nat)
    ensures |pages| == 0 ==> step == currentStep
    ensures step != currentStep ==> 1 <= step <= |pages|
    ensures (forall k :: 0 <= k < |pages| ==> !PageMatches(currentPath, pages[k])) ==> step == currentStep
    ensures (exists k :: 0 <= k < |pages| && PageMatches(currentPath, pages[k])) ==>
              && 1 <= step <= |pages|
              && PageMatches(currentPath, pages[step - 1])
              && forall k :: 0 <= k < step - 1 ==> !PageMatches(currentPath, pages[k])
  {
    if |pages| > 0 then
      var stepIndex := FindStepIndex(pages, currentPath);
      if stepIndex != -1 then stepIndex + 1 else currentStep
    else currentStep
  }

  /** One numbered step link: its 1-based number, its `href`, and whether it
      is the active step. */
  datatype StepLink = StepLink(number: nat, href: string, active: bool)

  /** The rendered bar: nothing for an empty page list, otherwise one link per
      page in order. */
  function RenderSteps(pages: seq<string>, step: nat): (links: Option<seq<StepLink>>)
    ensures links.None? <==> |pages| == 0
    ensures links.Some? ==> |links.value| == |pages|
    ensures links.Some? ==> forall i :: 0 <= i < |pages| ==>
              && links.value[i].number == i + 1
              && links.value[i].href == NormalizePagePath(pages[i])
              && StartsWith(links.value[i].href, "/")
              && EndsWith(links.value[i].href, pages[i])
              && (links.value[i].active <==> links.value[i].number == step)
  {
    if |pages| == 0 then None
    else Some(seq(|pages|, i requires 0 <= i < |pages| =>
                  StepLink(i + 1, NormalizePagePath(pages[i]), i + 1 == step)))
  }

  /** At most one step link is active. */
  lemma AtMostOneActive(pages: seq<string>, step: nat, i: nat, j: nat)
    requires RenderSteps(pages, step).Some?
    requires i < |pages| && j < |pages|
    requires RenderSteps(pages, step).value[i].active && RenderSteps(pages, step).value[j].active
    ensures i == j
  {
  }

  /** Starting from the initial step, a matching page makes its own link the
      only active one, and that link's target occurs in the current path;
      without a match no link is active. */
  lemma DetectedStepIsTheActiveLink(pages: seq<string>, currentPath: string)
    requires |pages| > 0
    ensures var step := DetectStep(InitialStep, pages, currentPath);
            var links := RenderSteps(pages, step).value;
            && (step == InitialStep ==> forall i :: 0 <= i < |links| ==> !links[i].active)
            && (step != InitialStep ==>
                  && links[step - 1].active
                  && Includes(currentPath, links[step - 1].href)
                  && forall i :: 0 <= i < |links| && i != step - 1 ==> !links[i].active)
  {
    var step := DetectStep(InitialStep, pages, currentPath);
    var links := RenderSteps(pages, step).value;
    if step != InitialStep {
      var i := FindStepIndex(pages, currentPath);
      assert i != -1 && step == i + 1;
      assert PageMatches(currentPath, pages[i]);
      assert links[i].href == NormalizePagePath(pages[i]);
      PageMatchesIffIncluded(currentPath, pages[i]);
      assert links[i].active;
    } else {
      assert forall k :: 0 <= k < |links| ==> links[k].number == k + 1;
    }
  }

  /** Re-running detection on the same pages and path changes nothing more. */
  lemma DetectStepStable(currentStep: nat, pages: seq<string>, currentPath: string)
    ensures var step := DetectStep(currentStep, pages, currentPath);
            DetectStep(step, pages, currentPath) == step
  {
  }
}

=== FILE: reset_control.dfy ===
/** The reset control's clearing rules: which `localStorage` keys it removes
    (every key under the site namespace, or only those under the listed ids)
    and which cookies it expires. */
module ResetControl {
  import opened JsValues
  import opened Text
  import ChoiceState

  /** The namespace every key of the site's stored data starts with. */
  const Namespace := "com.box.developer."

  /** `localStorage`: its keys in index order (`key(i)`) and its items. */
  datatype LocalStorage = LocalStorage(keys: seq<string>, items: map<string, string>)

  /** The keys are listed once each, and they are exactly the items' keys. */
  ghost predicate Valid(ls: LocalStorage) {
    && Distinct(ls.keys)
    && (forall k :: k in ls.items <==> k in ls.keys)
  }

  /** No element is listed twice. */
  predicate Distinct(s: seq<string>) {
    forall i, j :: 0 <= i < j < |s| ==> s[i] != s[j]
  }

  /** The prefixes the control clears, or `NotAString` when `id` is truthy
      but has no `split` (the `TypeError` is caught and nothing is removed). */
  datatype Selection = Prefixes(prefixes: seq<string>) | NotAString

  /** With an id, each comma-separated entry, trimmed, appended to the
      namespace; without one (a falsy `id`), the namespace itself. */
  function SelectPrefixes(id: Value): (sel: Selection)
    ensures !Truthy(id) ==> sel == Prefixes([Namespace])
    ensures Truthy(id) && !id.Str? ==> sel == NotAString
    ensures id.Str? && Truthy(id) ==>
              && sel.Prefixes?
              && |sel.prefixes| == |Split(id.s, ',')|
              && forall i :: 0 <= i < |sel.prefixes| ==>
                   sel.prefixes[i] == Namespace + Trim(Split(id.s, ',')[i])
  {
    if !Truthy(id) then Prefixes([Namespace])
    else if !id.Str? then NotAString
    else
      var ids := Split(id.s, ',');
      Prefixes(seq(|ids|, i requires 0 <= i < |ids| => Namespace + Trim(ids[i])))
  }

  /** `key && key.startsWith(prefix)` for some prefix. */
  predicate MatchesSome(key: string, prefixes: seq<string>) {
    key != "" && exists p :: p in prefixes && StartsWith(key, p)
  }

  /** Whether a reset with this `id` removes `key` when storage is usable. */
  predicate Clears(id: Value, key: string) {
    match SelectPrefixes(id)
    case NotAString => false
    case Prefixes(ps) => MatchesSome(key, ps)
  }

  /** `localStorage.removeItem(key)`: the item and its key are gone; removing
      a key that is not there changes nothing. */
  function RemoveItem(ls: LocalStorage, key: string): (ls': LocalStorage)
    requires Valid(ls)
    ensures Valid(ls')
    ensures ls'.items == ls.items - {key}
    ensures key !in ls.items ==> ls' == ls
  {
    var keys := Filter(ls.keys, key);
    LocalStorage(keys, ls.items - {key})
  }

  /** `s` without the occurrences of `x`, order kept. */
  function Filter(s: seq<string>, x: string): (r: seq<string>)
    ensures forall k :: k in r <==> k in s && k != x
    ensures x !in s ==> r == s
    ensures Distinct(s) ==> Distinct(r)
  {
    if |s| == 0 then []
    else if s[0] == x then
      assert Distinct(s) ==> Distinct(s[1..]);
      Filter(s[1..], x)
    else
      var rest := Filter(s[1..], x);
      assert forall k :: k in s[1..] ==> k in s;
      assert Distinct(s) ==> Distinct(s[1..]) && s[0] !in s[1..];
      [s[0]] + rest
  }

  /** Removing a key twice is removing it once, so duplicates in the
      collected list are harmless. */
  lemma RemoveItemIdempotent(ls: LocalStorage, key: string)
    requires Valid(ls)
    ensures RemoveItem(RemoveItem(ls, key), key) == RemoveItem(ls, key)
  {
  }

  /** The keys a pass over storage collects for one prefix, appended to `acc`. */
  method CollectForPrefix(ls: LocalStorage, prefix: string, acc: seq<string>) returns (r: seq<string>)
    ensures forall k :: k in r <==> k in acc || (k in ls.keys && k != "" && StartsWith(k, prefix))
  {
    r := acc;
    var i := 0;
    while i < |ls.keys|
      invariant 0 <= i <= |ls.keys|
      invariant forall k :: k in r <==> k in acc || (k in ls.keys[..i] && k != "" && StartsWith(k, prefix))
    {
      var key := ls.keys[i];
      if key != "" && StartsWith(key, prefix) {
        r := r + [key];
      }
      assert ls.keys[..i + 1] == ls.keys[..i] + [key];
      i := i + 1;
    }
    assert ls.keys[..i] == ls.keys;
  }

  /** The first phase: every pass over storage, one per prefix, collects
      the non-empty keys that start with that prefix. */
  method CollectKeys(ls: LocalStorage, prefixes: seq<string>) returns (keysToRemove: seq<string>)
    ensures forall k :: k in keysToRemove <==> k in ls.keys && MatchesSome(k, prefixes)
  {
    keysToRemove := [];
    var j := 0;
    while j < |prefixes|
      invariant 0 <= j <= |prefixes|
      invariant forall k :: k in keysToRemove <==> k in ls.keys && MatchesSome(k, prefixes[..j])
    {
      keysToRemove := CollectForPrefix(ls, prefixes[j], keysToRemove);
      assert prefixes[..j + 1] == prefixes[..j] + [prefixes[j]];
      j := j + 1;
    }
    assert prefixes[..j] == prefixes;
  }

  /** One removal step: deleting `key` from what survived `removed` leaves
      what survives `removed + [key]`, with values unchanged. */
  lemma RemoveStep(base: map<string, string>, before: map<string, string>, after: map<string, string>,
                   removed: seq<string>, key: string)
    requires forall k :: k in before <==> k in base && k !in removed
    requires forall k :: k in before ==> before[k] == base[k]
    requires after == before - {key}
    ensures forall k :: k in after <==> k in base && k !in removed + [key]
    ensures forall k :: k in after ==> after[k] == base[k]
  {
  }

  /** The second phase: removes each collected key in turn. */
  method RemoveKeys(ls: LocalStorage, keysToRemove: seq<string>) returns (ls': LocalStorage)
    requires Valid(ls)
    ensures Valid(ls')
    ensures forall k :: k in ls'.items <==> k in ls.items && k !in keysToRemove
    ensures forall k :: k in ls'.items ==> ls'.items[k] == ls.items[k]
  {
    ls' := ls;
    var i := 0;
    while i < |keysToRemove|
      invariant 0 <= i <= |keysToRemove|
      invariant Valid(ls')
      invariant forall k :: k in ls'.items <==> k in ls.items && k !in keysToRemove[..i]
      invariant forall k :: k in ls'.items ==> ls'.items[k] == ls.items[k]
    {
      var next := RemoveItem(ls', keysToRemove[i]);
      RemoveStep(ls.items, ls'.items, next.items, keysToRemove[..i], keysToRemove[i]);
      assert keysToRemove[..i + 1] == keysToRemove[..i] + [keysToRemove[i]];
      ls' := next;
      i := i + 1;
    }
    assert keysToRemove[..i] == keysToRemove;
  }

  /** `clearLocalStorageData`: collects every key to remove in full before
      removing any, then removes them. When storage throws on first use
      (`available` false) nothing is removed. A key survives iff it is not
      selected; surviving items keep their values. */
  method ClearLocalStorageData(ls: LocalStorage, id: Value, available: bool) returns (ls': LocalStorage)
    requires Valid(ls)
    ensures Valid(ls')
    ensures forall k :: k in ls'.items <==> k in ls.items && !(available && Clears(id, k))
    ensures forall k :: k in ls'.items ==> ls'.items[k] == ls.items[k]
  {
    var keysToRemove: seq<string> := [];
    var sel := SelectPrefixes(id);
    if available && sel.Prefixes? {
      keysToRemove := CollectKeys(ls, sel.prefixes);
    }
    ls' := RemoveKeys(ls, keysToRemove);
  }

  /** A reset without an id removes the engine's own document too: its key
      lies in the namespace. */
  lemma ResetWithoutIdClearsChoiceState(id: Value)
    requires !Truthy(id)
    ensures Clears(id, ChoiceState.StorageKey)
  {
    assert StartsWith(ChoiceState.StorageKey, Namespace);
  }

  /** Without an id, exactly the namespaced keys are removed. */
  lemma ResetWithoutIdClearsNamespace(id: Value, key: string)
    requires !Truthy(id)
    ensures Clears(id, key) <==> StartsWith(key, Namespace)
  {
    if StartsWith(key, Namespace) {
      assert Namespace in [Namespace];
    }
  }

  /** The single id `"app"` selects the single prefix under it. */
  lemma AppSelection()
    ensures SelectPrefixes(Str("app")) == Prefixes([Namespace + "app"])
  {
    AppPieces();
    var sel := SelectPrefixes(Str("app"));
    assert |sel.prefixes| == 1;
    assert sel.prefixes[0] == Namespace + "app";
  }

  lemma AppPieces()
    ensures Split("app", ',') == ["app"] && Trim("app") == "app"
  {
    SplitUnique("app", ["app"], ',');
    assert !IsJsWhitespace('a') && !IsJsWhitespace('p');
    assert SkipLeading("app", 0) == 0;
    assert SkipTrailing("app", 0, 3) == 3;
  }

  /** Prefix matching is textual: the id `"app"` also clears the keys of an
      id `"apps"`. */
  lemma IdPrefixAlsoClearsLongerIds()
    ensures Clears(Str("app"), Namespace + "apps.token")
  {
    AppSelection();
    var p := Namespace + "app";
    var key := Namespace + "apps.token";
    assert key == p + "s.token";
    assert key[..|p|] == p;
    assert p in [p];
  }

  /** A trailing comma in `id` yields an empty entry whose prefix is the bare
      namespace, so the reset then clears every namespaced key, not only those
      of the listed id. */
  lemma TrailingCommaClearsWholeNamespace(key: string)
    requires StartsWith(key, Namespace)
    ensures Clears(Str("a,"), key)
  {
    var pieces := ["a", ""];
    assert pieces[1..] == [""];
    assert Join(pieces, ',') == "a,";
    SplitUnique("a,", pieces, ',');
    assert SkipLeading("", 0) == 0 && SkipTrailing("", 0, 0) == 0;
    assert Trim("") == "";
    var ps := SelectPrefixes(Str("a,")).prefixes;
    assert ps[1] == Namespace + "";
    assert Namespace + "" == Namespace;
    assert Namespace in ps;
  }

  // ---------------------------------------------------------------------------
  // Cookies

  /** The cookie string that expires `name` on the root path. */
  function ExpiryCookie(name: string): string {
    name + "=; expires=Thu, 01 Jan 1970 00:00:00 UTC; path=/;"
  }

  /** What `clearCookiesData` writes to `document.cookie`, in order, or
      `Threw` when `id` is truthy but not a string. */
  datatype CookieOutcome = Written(cookies: seq<string>) | Threw

  /** `clearCookiesData`: nothing without an id; otherwise one expiry per
      comma-separated, trimmed entry of the id. */
  function ClearCookiesData(id: Value): (out: CookieOutcome)
    ensures !Truthy(id) ==> out == Written([])
    ensures Truthy(id) && !id.Str? ==> out == Threw
    ensures id.Str? && Truthy(id) ==>
              && out.Written?
              && |out.cookies| == |Split(id.s, ',')|
              && forall i :: 0 <= i < |out.cookies| ==>
                   out.cookies[i] == ExpiryCookie(Trim(Split(id.s, ',')[i]))
  {
    if !Truthy(id) then Written([])
    else if !id.Str? then Threw
    else
      var names := Split(id.s, ',');
      Written(seq(|names|, i requires 0 <= i < |names| => ExpiryCookie(Trim(names[i]))))
  }

  /** The two clears act on the same entries of the id. Without an id,
      cookies are left alone and the whole namespace is cleared. A truthy
      non-string id makes both fail. A string id gives one cookie per
      prefix, and cookie `i` expires exactly the name that prefix `i` adds
      to the namespace. */
  lemma CookiesFollowClearedPrefixes(id: Value)
    ensures !Truthy(id) ==> ClearCookiesData(id) == Written([]) && SelectPrefixes(id) == Prefixes([Namespace])
    ensures ClearCookiesData(id).Threw? <==> SelectPrefixes(id).NotAString?
    ensures Truthy(id) && id.Str? ==>
              var cookies := ClearCookiesData(id).cookies;
              var prefixes := SelectPrefixes(id).prefixes;
              && |cookies| == |prefixes|
              && forall i :: 0 <= i < |prefixes| ==>
                   && StartsWith(prefixes[i], Namespace)
                   && cookies[i] == ExpiryCookie(prefixes[i][|Namespace|..])
  {
    if Truthy(id) && id.Str? {
      var prefixes := SelectPrefixes(id).prefixes;
      forall i | 0 <= i < |prefixes|
        ensures StartsWith(prefixes[i], Namespace)
        ensures prefixes[i][|Namespace|..] == Trim(Split(id.s, ',')[i])
      {
        var name := Trim(Split(id.s, ',')[i]);
        assert prefixes[i] == Namespace + name;
        assert (Namespace + name)[..|Namespace|] == Namespace;
        assert (Namespace + name)[|Namespace|..] == name;
      }
    }
  }
}

=== FILE: text.dfy ===
/** The JavaScript string operations the modelled code relies on:
    `split` on one character, `trim`, `startsWith`, `endsWith`, `includes`
    and `toLowerCase` (ASCII letters only). */
module Text {

  /** The code points `String.prototype.trim` strips: ECMAScript's
      WhiteSpace (tab, vertical tab, form feed, space, no-break space,
      byte order mark and the space separators U+1680, U+2000 to U+200A,
      U+202F, U+205F, U+3000) and LineTerminator (LF, CR, U+2028, U+2029). */
  const JsWhitespace: set<char> := {
    '\t', '\n', '\U{000B}', '\U{000C}', '\r', ' ', '\U{00A0}', '\U{1680}',
    '\U{2000}', '\U{2001}', '\U{2002}', '\U{2003}', '\U{2004}', '\U{2005}',
    '\U{2006}', '\U{2007}', '\U{2008}', '\U{2009}', '\U{200A}',
    '\U{2028}', '\U{2029}', '\U{202F}', '\U{205F}', '\U{3000}', '\U{FEFF}'
  }

  predicate IsJsWhitespace(c: char) {
    c in JsWhitespace
  }

  /** Neither the first nor the last character is whitespace. */
  predicate IsTrimmed(s: string) {
    s == [] || (!IsJsWhitespace(s[0]) && !IsJsWhitespace(s[|s| - 1]))
  }

  /** The first position at or after `lo` that does not hold whitespace. */
  function SkipLeading(s: string, lo: nat): (i: nat)
    requires lo <= |s|
    ensures lo <= i <= |s|
    ensures forall k :: lo <= k < i ==> IsJsWhitespace(s[k])
    ensures i == |s| || !IsJsWhitespace(s[i])
    decreases |s| - lo
  {
    if lo < |s| && IsJsWhitespace(s[lo]) then SkipLeading(s, lo + 1) else lo
  }

  /** The end of `s[lo..hi]` once its trailing whitespace is dropped. */
  function SkipTrailing(s: string, lo: nat, hi: nat): (j: nat)
    requires lo <= hi <= |s|
    ensures lo <= j <= hi
    ensures forall k :: j <= k < hi ==> IsJsWhitespace(s[k])
    ensures j == lo || !IsJsWhitespace(s[j - 1])
    decreases hi
  {
    if lo < hi && IsJsWhitespace(s[hi - 1]) then SkipTrailing(s, lo, hi - 1) else hi
  }

  /** `r` is `s[i..i + |r|]` and every character of `s` around it is whitespace. */
  ghost predicate SliceBetweenWhitespace(s: string, r: string, i: int) {
    && 0 <= i <= |s| - |r|
    && r == s[i..i + |r|]
    && (forall k :: 0 <= k < i ==> IsJsWhitespace(s[k]))
    && (forall k :: i + |r| <= k < |s| ==> IsJsWhitespace(s[k]))
  }

  /** `s.trim()`: the slice of `s` left after removing whitespace at both
      ends; everything removed is whitespace, and what is left starts and
      ends with a non-whitespace character. */
  function Trim(s: string): (r: string)
    ensures IsTrimmed(r)
    ensures exists i :: SliceBetweenWhitespace(s, r, i)
  {
    var i := SkipLeading(s, 0);
    var j := SkipTrailing(s, i, |s|);
    assert SliceBetweenWhitespace(s, s[i..j], i);
    s[i..j]
  }

  /** Trimming a string that already has no whitespace at either end
      returns it unchanged. */
  lemma TrimOfTrimmed(s: string)
    requires IsTrimmed(s)
    ensures Trim(s) == s
  {
  }

  /** `trim` is idempotent. */
  lemma TrimIdempotent(s: string)
    ensures Trim(Trim(s)) == Trim(s)
  {
    TrimOfTrimmed(Trim(s));
  }

  /** `a.join(sep)` for a non-empty list of pieces. */
  function Join(pieces: seq<string>, sep: char): string
    requires |pieces| >= 1
  {
    if |pieces| == 1 then pieces[0] else pieces[0] + [sep] + Join(pieces[1..], sep)
  }

  /** No piece contains the separator. */
  predicate SeparatorFree(pieces: seq<string>, sep: char) {
    forall i :: 0 <= i < |pieces| ==> sep !in pieces[i]
  }

  /** `s.split(sep)` for a one-character separator: at least one piece
      (`"".split(",")` is `[""]`), no piece contains the separator, and
      joining the pieces back gives `s`. */
  function Split(s: string, sep: char): (r: seq<string>)
    ensures |r| >= 1
    ensures SeparatorFree(r, sep)
    ensures Join(r, sep) == s
    decreases |s|
  {
    if |s| == 0 then [""]
    else if s[0] == sep then
      var rest := Split(s[1..], sep);
      assert ([""] + rest)[1..] == rest;
      [""] + rest
    else
      var rest := Split(s[1..], sep);
      var r := [[s[0]] + rest[0]] + rest[1..];
      assert r[1..] == rest[1..];
      assert s == [s[0]] + s[1..];
      r
  }

  /** Splitting a string with no separator yields the string itself. */
  lemma {:induction false} SplitNoSeparator(s: string, sep: char)
    requires sep !in s
    ensures Split(s, sep) == [s]
    decreases |s|
  {
    if |s| > 0 {
      SplitNoSeparator(s[1..], sep);
    }
  }

  /** A separator-free prefix followed by the separator becomes the first piece. */
  lemma {:induction false} SplitAfterPiece(a: string, b: string, sep: char)
    requires sep !in a
    ensures Split(a + [sep] + b, sep) == [a] + Split(b, sep)
    decreases |a|
  {
    var s := a + [sep] + b;
    if |a| == 0 {
      assert s[1..] == b;
    } else {
      assert s[1..] == a[1..] + [sep] + b;
      SplitAfterPiece(a[1..], b, sep);
      assert [a[0]] + a[1..] == a;
    }
  }

  /** `split` inverts `join` on separator-free pieces. */
  lemma {:induction false} SplitJoin(pieces: seq<string>, sep: char)
    requires |pieces| >= 1 && SeparatorFree(pieces, sep)
    ensures Split(Join(pieces, sep), sep) == pieces
    decreases |pieces|
  {
    if |pieces| == 1 {
      SplitNoSeparator(pieces[0], sep);
    } else {
      SplitJoin(pieces[1..], sep);
      SplitAfterPiece(pieces[0], Join(pieces[1..], sep), sep);
      assert [pieces[0]] + pieces[1..] == pieces;
    }
  }

  /** The pieces of `s` are the only separator-free list that joins back to `s`. */
  lemma SplitUnique(s: string, pieces: seq<string>, sep: char)
    requires |pieces| >= 1 && SeparatorFree(pieces, sep)
    requires Join(pieces, sep) == s
    ensures pieces == Split(s, sep)
  {
    SplitJoin(pieces, sep);
  }

  /** `s.startsWith(p)`. */
  predicate StartsWith(s: string, p: string) {
    |p| <= |s| && s[..|p|] == p
  }

  /** `s.endsWith(p)`. */
  predicate EndsWith(s: string, p: string) {
    |p| <= |s| && s[|s| - |p|..] == p
  }

  /** `needle` occurs in `hay` at position `i`. */
  ghost predicate OccursAt(hay: string, needle: string, i: int) {
    0 <= i <= |hay| - |needle| && hay[i..i + |needle|] == needle
  }

  /** `hay.includes(needle)`: some position of `hay` holds `needle`. */
  function Includes(hay: string, needle: string): (r: bool)
    ensures r <==> exists i :: OccursAt(hay, needle, i)
    decreases |hay|
  {
    if StartsWith(hay, needle) then
      assert OccursAt(hay, needle, 0);
      true
    else if |hay| == 0 then
      false
    else
      var r := Includes(hay[1..], needle);
      IncludesStep(hay, needle);
      r
  }

  /** Occurrences in `hay` after position 0 are the occurrences in `hay[1..]`, shifted. */
  lemma IncludesStep(hay: string, needle: string)
    requires |hay| > 0 && !StartsWith(hay, needle)
    ensures (exists i :: OccursAt(hay, needle, i)) <==> (exists i :: OccursAt(hay[1..], needle, i))
  {
    if exists i :: OccursAt(hay, needle, i) {
      var i :| OccursAt(hay, needle, i);
      assert i != 0;
      assert hay[1..][i - 1..i - 1 + |needle|] == hay[i..i + |needle|];
      assert OccursAt(hay[1..], needle, i - 1);
    }
    if exists i :: OccursAt(hay[1..], needle, i) {
      var i :| OccursAt(hay[1..], needle, i);
      assert hay[1..][i..i + |needle|] == hay[i + 1..i + 1 + |needle|];
      assert OccursAt(hay, needle, i + 1);
    }
  }

  /** A suffix is in particular an occurrence. */
  lemma EndsWithImpliesIncludes(hay: string, needle: string)
    requires EndsWith(hay, needle)
    ensures Includes(hay, needle)
  {
    assert OccursAt(hay, needle, |hay| - |needle|);
  }

  /** `toLowerCase` on ASCII letters; other characters are kept. */
  function ToLowerAscii(s: string): (r: string)
    ensures |r| == |s|
    ensures forall i :: 0 <= i < |r| ==> !('A' <= r[i] <= 'Z')
    ensures forall i :: 0 <= i < |s| && !('A' <= s[i] <= 'Z') ==> r[i] == s[i]
    ensures forall i :: 0 <= i < |s| && 'A' <= s[i] <= 'Z' ==> r[i] as int == s[i] as int + 32
  {
    seq(|s|, i requires 0 <= i < |s| =>
      if 'A' <= s[i] <= 'Z' then (s[i] as int + 32) as char else s[i])
  }
}

=== FILE: wrappers.dfy ===
/** Optional values, used for the "maybe absent" inputs of the modelled code
    (a missing header object, a missing upstream response, a component that
    renders nothing). */
module Wrappers {

  datatype Option<+T> = None | Some(value: T)
}
